=== FILE: README.md ===
# back_dev core in Dafny

A model of the request-handling core of a NestJS backend for a care service. The backend
keeps users, roles, work groups, teams, assignments of users to teams, caregivers and
patients.

The model covers:
- the login check and the session it issues;
- the bearer-token middleware and the routes it leaves open;
- the user and role services with their filtered, paged listings;
- the create / update / remove / disable services of the other entities;
- how the user and role controllers turn service failures into HTTP statuses;
- the validators of the request bodies and queries that carry real constraints.

Each repository is a `map<int, Record>` keyed by its generated id. An operation is a pure
function, or a method where a loop is needed, returning `Result<T>`. A failure is either an
`HttpException(status)` or a `PlainError`: any other thrown error, a database constraint
violation among them.

Some inputs are parameters rather than computations:
- generated ids, and timestamps (`now`);
- `bcrypt.hash`/`compare`, and `jwt.sign`/`verify`, as the fields of `Crypto.Primitives`;
- the JWT secret;
- for the services that only check existence, the key sets of related stores.

The user services are modelled against the `User` entity they are written for, with
`role` a relation to `Role` and a `resetPasswordToken` column; module `UserEntity` records
which of their queries the entity as declared cannot run (see Findings).

Unique constraints are modelled as a save that fails with `PlainError`. That failure makes
these store invariants provable:
- unique role names;
- unique user documents, e-mails and usernames;
- unique patient identity cards;
- no duplicate (user, team) pair created;
- caregiver column widths.

## Model

| member | source | states |
|---|---|---|
| Http.PassHttp | src/role/role.controller.ts:54-64 | an HttpException passes through unchanged, any other error becomes 500, success is unchanged, and every failure that leaves is an HttpException |
| Store.FindOne | src/user/user.service.ts:33-36 | `findOne({ where })` returns a stored entry satisfying the condition, and returns none exactly when no record satisfies it |
| Store.FindKey | src/role/role.service.ts:44-46 | the key found holds a matching record; no key is found iff no record matches |
| Store.Insert | src/user/user.service.ts:124 | inserting into a list ordered by creation time, newest first, keeps it ordered and adds exactly that key |
| Store.HeadDominates | src/user/user.service.ts:124 | a head that outranks the inserted key stays ahead of the whole insertion result |
| Store.Listing | src/user/user.service.ts:108-124 | the query result holds every matching key exactly once (as a multiset), newest first |
| Store.Page | src/user/user.service.ts:124-128 | the page is the `skip`/`take` window of the ordered result: every remaining row up to `take` of them (so only a last page is short), each the stored record at position `skip + i`, newest first |
| Store.ListedAreKept | src/user/user.service.ts:108-124 | every key in the query result is a stored key whose record matches the filter |
| Store.WindowOrdered | src/user/user.service.ts:124-125 | a window of a newest-first result is itself newest first |
| Store.CeilDiv | src/user/user.service.ts:130 | `totalPages * limit` covers the count, and one page fewer would not |
| Store.CeilDivIsLeast | src/user/user.service.ts:130 | `totalPages` is the least number of pages that covers the count |
| Store.Window | src/user/user.service.ts:125 | `skip(s).take(t)` of `n` rows keeps none when `s >= n`, otherwise `t` rows or the `n - s` that remain if fewer, and row `i` is row `s + i` of the input |
| Store.PagingOf | src/user/user.service.ts:106-125 | with page 1 and limit 10 as defaults, `take` is the supplied limit or 10 (at least 1) and `skip` is `(page - 1) * limit`, which is never negative |
| Text.FoldingIsIdempotent | src/user/user.service.ts:112-122 | folding twice is folding once |
| Text.ContainsSlice | src/user/user.service.ts:112-122 | any slice of a value, in any case, matches it under `ILIKE '%slice%'` |
| RoleService.FindByOneById | src/role/role.service.ts:25-41 | returns the role with that id and all its columns, or fails with 404 exactly when no role has that id |
| RoleService.FindByName | src/role/role.service.ts:43-59 | returns a role with that exact name, or fails with 404 exactly when no role has it; with unique names, it returns the only one |
| RoleService.FindAllFilter | src/role/role.service.ts:61-102 | the count covers exactly the roles whose name contains the filter case-insensitively (all roles when the filter is empty); the data is the requested window, every remaining row up to the limit, newest first; `rolePerPage` is its length; the inner and outer `totalCount` agree; `totalPages` is the ceiling of the count over the limit |
| RoleService.CreateRole | src/role/role.service.ts:104-117 | stores exactly the given name under the new id, fails with a plain error iff the name is already taken, and keeps names unique |
| RoleService.UpdateRole | src/role/role.service.ts:119-150 | 404 for an unknown id comes before 400 for an empty body; on success the store is unchanged and only the id and creation time are returned |
| RoleService.DeleteRole | src/role/role.service.ts:152-168 | fails with 404 iff the id is unknown; otherwise only that id is removed |
| RoleService.DeleteKeepsUniqueNames | src/role/role.service.ts:152-168 | removing a role keeps the remaining names distinct |
| UserService.FindOneWhere | src/user/user.service.ts:32-47 | a lookup returns a stored user meeting the condition, or fails with 404 exactly when none does |
| UserService.FindOneByDocument | src/user/user.service.ts:32-47 | returns a user with that document, or 404 exactly when none has it; with unique documents, it returns the only one |
| UserService.FindByOneById | src/user/user.service.ts:49-68 | returns exactly the exposed view of the user with that id, role joined, or 404 exactly when the id is unknown |
| UserService.FindOneByEmail | src/user/user.service.ts:70-85 | returns a user with that e-mail, or 404 exactly when none has it; with unique e-mails, it returns the only one |
| UserService.FindOneByResetPasswordToken | src/user/user.service.ts:87-103 | returns a user holding that reset token, or 404 exactly when none does |
| UserService.FindOneByResetPasswordTokenAsWritten | src/user/user.service.ts:87-92 | against the entity as declared, the lookup fails with a plain error for every token and every store |
| UserService.FiltersOnlyNarrow | src/user/user.service.ts:112-122 | dropping a filter never loses a user; absent or empty filters select every user; a username filter that is a slice of the username selects that user |
| UserService.FindAllFilter | src/user/user.service.ts:105-150 | the count covers exactly the selected users; the data is the requested window of views, every remaining row up to the limit, newest first; `userPerPage` is its length; `totalPages` is the ceiling of the count over the limit |
| UserService.CreateUser | src/user/user.service.ts:152-179 | 404 iff no role has the requested name. A plain error iff the role exists and the document or e-mail is taken. On success only the new id is added, holding the hash of the password (never the plaintext), the copied fields and the found role. Uniqueness is kept |
| UserService.SaveRow | src/person/person.entity.ts:17-36 | saving a new user row fails with a plain error iff `document` or `email` is NULL, since both columns are NOT NULL, or the completed row clashes with another user. On success exactly that row is stored under the new id and uniqueness is kept |
| UserService.UpdateUser | src/user/user.service.ts:181-216 | 404 for an unknown id comes before 400 for an empty body. A plain error iff the merged record shares a document, e-mail or username with another user. On success every supplied field replaces the old one, a non-empty password is stored hashed, an empty password is stored as the empty text without hashing, and every other column is unchanged. Only that id changes and uniqueness is kept |
| AuthService.ValidateUser | src/auth/auth.service.ts:22-42 | success returns a stored user matching the document (any user when the body has none) whose hash matches the password. 404 iff no user matches. A plain error iff a user matches but the password is missing. 401 only when a matching user's hash does not match. With a document and unique documents, success iff the credentials are authentic |
| AuthService.LoginFailure | src/auth/auth.service.ts:62-75 | a 404 or 401 is rethrown as it is, anything else becomes 500 |
| AuthService.Login | src/auth/auth.service.ts:44-76 | on success the token is the signature of `{sub: id, document}` of the stored user and the user part is exactly its id, document, name and role. 404 iff no user matches the document; 500 iff one does but the password is missing; every failure is 404, 401 or 500. With a document and unique documents, success iff the credentials are authentic |
| AuthService.LoginRejectsWrongPassword | src/auth/auth.service.ts:31-39 | with a document and unique documents, login fails with 401 exactly when a password is given, the document exists and the password does not match |
| AuthService.LookUp | src/user/user.service.ts:32-47 | the lookup of `validateUser` returns a stored user matching the document, matching any user when the body has no document, or 404 exactly when none matches |
| AuthService.MissingDocumentLogsInAnyone | src/auth/auth.service.ts:44-46 | a body without a document and with the password of the only stored user logs in as that user |
| AuthService.LoginAsWritten | src/auth/auth.service.ts:44-76 | against the entity as declared, every login answers 500, whatever the body and the users |
| UserEntity.DeclaredRejectsServiceQueries | src/user/user.entity.ts:18-23 | against the entity as declared, the document, id, reset-token and listing queries throw a plain error whatever the rows; the e-mail lookup runs |
| UserEntity.AssumedResolvesServiceQueries | src/user/user.service.ts:32-110 | against the entity the services assume, every query returns its answer |
| AuthMiddleware.Split | src/middlewares/auth.middleware.ts:18 | `split(' ')` yields at least one piece and no piece contains a space |
| AuthMiddleware.JoinSplit | src/middlewares/auth.middleware.ts:18 | joining the pieces of a split gives the header back |
| AuthMiddleware.SplitAtFirst | src/middlewares/auth.middleware.ts:18 | a space-free word, a space and more text split into that word followed by the pieces of the text |
| AuthMiddleware.SplitJoin | src/middlewares/auth.middleware.ts:18 | splitting the join of space-free pieces gives those pieces back |
| AuthMiddleware.Use | src/middlewares/auth.middleware.ts:10-35 | every rejection is 401. Header-missing iff the header is absent or empty. Token-missing iff there is a header but no non-empty second word. `next` is called iff that word is present, non-empty and verifies under the secret |
| AuthMiddleware.TokenIsSecondWord | src/middlewares/auth.middleware.ts:18 | the token read from `scheme token` is `token`, whatever the scheme |
| AuthMiddleware.SchemeIgnored | src/middlewares/auth.middleware.ts:18-29 | any scheme word followed by a valid token passes the gate |
| AuthMiddleware.SingleWordRejected | src/middlewares/auth.middleware.ts:18-23 | a non-empty header without a space is rejected as token-missing |
| AuthMiddleware.EmptyBearerRejected | src/middlewares/auth.middleware.ts:18-23 | `"Bearer "` is rejected as token-missing |
| AppModule.Admit | src/app.module.ts:48-57 | an excluded route is let through. Any other route gets the middleware's decision, so every rejection is 401. A request passes iff its route is excluded or it carries a valid token |
| AppModule.OpenRoutesAreExactlyThree | src/app.module.ts:51-55 | a route is open iff it is POST on `auth/login`, `users` or `role` |
| AppModule.UnauthenticatedReadIsRejected | src/app.module.ts:51-56 | any non-POST request without a header is rejected 401 as header-missing |
| AppModule.ResetRoutesAreGuarded | src/app.module.ts:51-56 | the two password-reset routes go through the middleware |
| Assignments.FindByTeamId | src/assignment/assignments.service.ts:27-32 | returns exactly the assignments of that team, unchanged |
| Assignments.TeamsPartitionAssignments | src/assignment/assignments.service.ts:27-32 | different teams' results are disjoint, and every assignment appears under its own team |
| Assignments.Create | src/assignment/assignments.service.ts:34-51 | 404 iff the user or the team is missing. A plain error iff both exist and the pair is already assigned. Success iff both exist and the pair is new; then exactly one assignment with that user and team is added, and no pair is stored twice |
| Assignments.Update | src/assignment/assignments.service.ts:53-67 | 404 iff the id is unknown. A plain error iff a supplied non-zero id names a missing user or team. Success iff the id is known and no supplied id dangles; then only that assignment changes, taking each supplied non-zero id and keeping the rest |
| Assignments.UpdateCanDuplicatePair | src/assignment/assignments.service.ts:53-67 | a concrete store without duplicates where a successful update stores a pair twice |
| Assignments.ZeroIdIgnored | src/assignment/assignments.service.ts:59-64 | ids of 0 in the body change nothing |
| Assignments.Remove | src/assignment/assignments.service.ts:69-74 | 404 iff nothing was deleted; otherwise only that id is gone, and no duplicate pair appears |
| Teams.FindOne | src/team/teams.service.ts:24-31 | returns the stored team with that id, or 404 exactly when there is none |
| Teams.Create | src/team/teams.service.ts:33-44 | 404 iff the work group does not exist; otherwise only the new id is added, with the given name and work group |
| Teams.Update | src/team/teams.service.ts:46-53 | 404 iff the id is unknown; otherwise only that team changes: its name is the supplied one or the old one, and its work group stays |
| Teams.UpdateKeepsWorkGroup | src/team/teams.service.ts:46-53 | a body that supplies only a new work group leaves the store unchanged |
| Teams.Remove | src/team/teams.service.ts:55-63 | 404 iff nothing was deleted; otherwise only that id is gone |
| WorkGroups.FindOne | src/workgroup/workgroups.service.ts:21-28 | returns the group with exactly the teams that belong to it, or 404 exactly when the id is unknown |
| WorkGroups.Create | src/workgroup/workgroups.service.ts:30-35 | adds exactly one group, holding the given name, and keeps the others |
| WorkGroups.Update | src/workgroup/workgroups.service.ts:37-43 | 404 iff the id is unknown; otherwise only that group changes, taking the supplied name or keeping its own |
| WorkGroups.EmptyUpdateIsIdentity | src/workgroup/workgroups.service.ts:37-43 | an empty body leaves the store unchanged |
| WorkGroups.Remove | src/workgroup/workgroups.service.ts:45-53 | 404 iff nothing was deleted; otherwise only that id is gone |
| WorkGroups.CreatedTeamIsListed | src/workgroup/workgroups.service.ts:21-28 | a team just created under a group is among that group's teams |
| Caregivers.FindOne | src/Caregiver/caregivers.service.ts:19-25 | returns the stored caregiver with that id, or 404 exactly when there is none |
| Caregivers.CutLosesOnlySpaces | src/Caregiver/entities/caregiver.entity.ts:8-45 | a text a `varchar(n)` column accepts is what it keeps followed only by spaces, and a text within n characters is kept whole |
| Caregivers.Create | src/Caregiver/caregivers.service.ts:27-30 | fails with a plain error iff `isActive` is `null` or a text is refused by its `varchar` column. Otherwise only the new id is added: every text as its column keeps it (the whole text when it fits), every other field copied, and `isActive` true unless the body says false. Rows keep fitting their columns |
| Caregivers.Update | src/Caregiver/caregivers.service.ts:32-35 | 404 iff the id is unknown. A plain error iff a supplied text is refused by its column. Success iff the id is known and every supplied text is accepted; then only that row changes, every supplied field replaces the old one (texts as their columns keep them) and the others stay. Rows keep fitting |
| Caregivers.MergeIsAssignment | src/Caregiver/caregivers.service.ts:32-35 | the merge sets exactly the supplied columns, and a row within its widths stays within them |
| Caregivers.Disable | src/Caregiver/caregivers.service.ts:37-41 | 404 iff the id is unknown; otherwise only `isActive` becomes false and every other column and row stays |
| Caregivers.DisableIsIdempotent | src/Caregiver/caregivers.service.ts:37-41 | disabling twice gives the same result as disabling once |
| Caregivers.DisableIsDeactivatingUpdate | src/Caregiver/caregivers.service.ts:32-41 | disabling equals the update that supplies only `isActive: false` |
| Patients.Create | src/patients/patients.service.ts:15-18 | fails with a plain error iff the identity card is taken; otherwise only the new id is added with every field copied, and identity cards stay unique |
| Patients.FindOne | src/patients/patients.service.ts:24-28 | returns the stored patient with that id, or 404 exactly when there is none |
| Patients.Update | src/patients/patients.service.ts:30-34 | 404 iff the id is unknown. A plain error iff the merged identity card belongs to another patient. Success iff the id is known and the card is free; then only that row changes, every supplied field replaces the old one and the others stay. Identity cards stay unique |
| Patients.Disable | src/patients/patients.service.ts:36-40 | 404 iff the id is unknown; otherwise only `status` becomes false, and identity cards stay unique |
| Patients.DisableIsIdempotent | src/patients/patients.service.ts:36-40 | disabling twice gives the same result as disabling once |
| Patients.DisableIsDeactivatingUpdate | src/patients/patients.service.ts:30-40 | with unique identity cards, disabling equals the update that supplies only `status: false` |
| UserController.FindUserById | src/user/user.controller.ts:33-47 | success iff the id is known, with the service's view; every failure reads as 404 |
| UserController.FindUserByIdAsWritten | src/user/user.controller.ts:33-47 | against the entity as declared, every id is answered 404, known or not |
| UserController.FindAllFiltered | src/user/user.controller.ts:49-65 | a valid query always succeeds with the service's listing: exactly the selected users counted, the remaining window of their views newest first, `userPerPage` its length, and `totalPages` the ceiling of the count over the limit |
| UserController.FindAllFilteredAsWritten | src/user/user.controller.ts:49-65 | against the entity as declared, every listing is answered 500 |
| UserController.CreateUser | src/user/user.controller.ts:67-82 | fails iff no role has the requested name or the document or e-mail is taken, and every failure reads as 500. Success adds only the new id, holding the password hash, the document, names, e-mail, direction and status of the body and the named role. Uniqueness is kept |
| UserController.CreateUserAsWritten | src/user/user.service.ts:152-179 | as the body reaches the service after the whitelist pipe, every `POST /users` answers 500: with no role the name-less lookup answers 404, otherwise the row has NULL document and e-mail and the save is refused, and the catch turns either into 500 |
| UserController.UpdateUser | src/user/user.controller.ts:84-102 | succeeds exactly when the service does, that is for a known id, a non-empty body and no clash with another user; the success is the service's result, and every failure reads as 500 |
| UserController.UpdateHidesClientErrors | src/user/user.controller.ts:92-101 | the service's 404 for an unknown id and its 400 for an empty body both reach the client as 500 |
| UserController.DeleteUser | src/user/user.controller.ts:104-120 | success iff the service call succeeded; an HttpException passes through; any other error becomes 500 |
| RoleController.FindRoleById | src/role/role.controller.ts:26-44 | the un-awaited service result reaches the client as it is: every column of the role, or the service's 404 |
| RoleController.FindAllFiltered | src/role/role.controller.ts:46-65 | a valid query always succeeds with the service's listing: exactly the matching roles counted, the remaining window of them newest first, `rolePerPage` its length, both `totalCount`s equal, and `totalPages` the ceiling of the count over the limit |
| RoleController.CreateRole | src/role/role.controller.ts:67-86 | a taken name reads as 500 and only then fails; success stores the role and keeps names unique |
| RoleController.UpdateRole | src/role/role.controller.ts:88-109 | the service's 404 and 400 pass through unchanged, in that order; success leaves the store unchanged |
| RoleController.DeleteRole | src/role/role.controller.ts:111-127 | the service's 404 passes through; success removes only that id and leaves every other role as it was |
| RoleController.UnknownIdAnsweredDifferently | src/role/role.controller.ts:88-109 | an unknown id in an update is answered 404 by the role handler and 500 by the user handler |
| Uuid.FormattedVersion4Accepted | src/auth/dto/resetPassword.dto.ts:4-6 | the text of any 16 bytes with the version and variant bits set as RFC 4122 section 4.4 says passes `@IsUUID('4')` |
| Uuid.Version1Rejected | src/auth/dto/resetPassword.dto.ts:4 | a version-1 UUID is refused |
| ParseInt.SkipWhiteSpace | src/user/dto/filtersUser.dto.ts:18 | the scan stops inside the text, at a position that is not white space |
| ParseInt.SkippedIsWhiteSpace | src/user/dto/filtersUser.dto.ts:18 | everything the scan skips is white space, so it stops at the first non-blank character |
| ParseInt.DigitsEnd | src/user/dto/filtersUser.dto.ts:18 | the digit run ends inside the text, at a non-digit or at the end |
| ParseInt.DigitsEndOnlyDigits | src/user/dto/filtersUser.dto.ts:18 | the run read is all digits |
| ParseInt.ToDecimal | src/user/dto/filtersUser.dto.ts:18 | the decimal text of a number is a non-empty digit string without a leading zero |
| ParseInt.DecimalRoundTrip | src/user/dto/filtersUser.dto.ts:18 | reading the decimal text of `n` gives `n` |
| ParseInt.SkipStopsAt | src/user/dto/filtersUser.dto.ts:18 | white space up to a non-blank position is skipped exactly |
| ParseInt.DigitsStopAt | src/user/dto/filtersUser.dto.ts:18 | digits up to a non-digit are read exactly |
| ParseInt.ReadsDigitsAt | src/user/dto/filtersUser.dto.ts:18 | white space, an optional minus and a digit run ending at a non-digit parse to the value of the run, negated after the minus |
| ParseInt.ParseIntReadsNumber | src/user/dto/filtersUser.dto.ts:18 | white space, an optional minus, a number and any non-digit tail parse to that signed number |
| ParseInt.NoDigitsIsNaN | src/user/dto/filtersUser.dto.ts:18 | text with no digit after the white space and sign parses to NaN |
| ResetPasswordDto.Validate | src/auth/dto/resetPassword.dto.ts:3-12 | accepted iff the token is a version-4 UUID string and the password is a string of 6 to 20 characters; otherwise 400 |
| ResetPasswordDto.GeneratedTokenAccepted | src/auth/dto/resetPassword.dto.ts:4-11 | a freshly generated version-4 token with a 6-to-20-character password is accepted |
| CreateUserDto.Validate | src/user/dto/createUser.dto.ts:11-28 | accepted iff the username is a non-empty string, the role is a non-empty enumeration value, the password a string of 6 to 20 characters and the status a boolean; otherwise 400 |
| CreateUserDto.PasswordBoundDecides | src/user/dto/createUser.dto.ts:20-23 | otherwise valid bodies are accepted iff the password has 6 to 20 characters |
| FiltersUserDto.Validate | src/user/dto/filtersUser.dto.ts:4-26 | accepted iff page and limit are each absent or parse to an integer of at least 1; otherwise 400. The filters are the truthy strings, and page and limit are present iff sent |
| FiltersUserDto.PageReadsAsNumber | src/user/dto/filtersUser.dto.ts:15-19 | a page whose text parses to `n >= 1` is accepted as `n` |
| FiltersUserDto.PageReadsLeadingNumber | src/user/dto/filtersUser.dto.ts:15-19 | a page written as a number followed by non-digit text (`2x`) is accepted as that number |
| FiltersUserDto.EmptyPageRefused | src/user/dto/filtersUser.dto.ts:15-19 | an empty `page=` is refused with 400, while a missing page means page 1 |
| FiltersUserDto.AcceptedQueryIsListable | src/user/dto/filtersUser.dto.ts:15-25 | an accepted query has non-empty filters, a take of at least 1 and `skip = (page - 1) * limit` |
| CreateCaregiverDto.Dto | src/Caregiver/dto/createCaregiver.dto.ts:3-62 | the service gets exactly the strings and numbers of the body, and an `isActive` that is absent, `null` or the boolean sent, kept apart |
| CreateCaregiverDto.Validate | src/Caregiver/dto/createCaregiver.dto.ts:3-62 | accepted iff every decorator as written holds (three length bounds, required and optional fields); otherwise 400 |
| CreateCaregiverDto.BoundedColumnsFit | src/Caregiver/dto/createCaregiver.dto.ts:4-17 | an accepted canton, parish or zone type fits its column |
| CreateCaregiverDto.WideGenderPassesValidation | src/Caregiver/dto/createCaregiver.dto.ts:55-57 | any accepted body whose gender has a character other than a space past the tenth passes validation, yet its insert fails with a plain error |
| CreateCaregiverDto.LongGenderPassesValidation | src/Caregiver/dto/createCaregiver.dto.ts:55-57 | a body with an 11-character gender is accepted, yet the insert fails with a plain error |
| CreateCaregiverDto.NullIsActivePassesValidation | src/Caregiver/dto/createCaregiver.dto.ts:59-61 | a body valid without `isActive` is still accepted with `isActive: null`, yet its insert fails with a plain error |
| CreateCaregiverDto.ValidateFitted | src/Caregiver/dto/createCaregiver.dto.ts:47-61 | the corrected validator: accepted iff the decorators hold, both names have at most 100 characters, the gender at most 10, and `isActive` is not `null`; otherwise 400 |
| CreateCaregiverDto.FittedIsAcceptedAndFits | src/Caregiver/dto/createCaregiver.dto.ts:47-61 | the corrected validator accepts exactly the bodies the original accepts whose texts are within their column widths and whose `isActive` is not `null` |
| CreateCaregiverDto.FittedBodyIsStored | src/Caregiver/dto/createCaregiver.dto.ts:47-61 | every body the corrected validator accepts is stored, each bounded text exactly as sent |

## Left out

- The password-reset flow: the auth controller calls `requestResetPassword` and `resetPassword`, but auth.service.ts defines neither. Only the token lookup and the body validator are modelled.
- UserController.DeleteUser: `UserService.deleteUser` is not defined in user.service.ts, so the handler is modelled over the outcome of that call, given as a parameter.
- bcrypt, JWT signing and verification, and token expiry are opaque functions. `expiresIn` is enforced inside the library and is not modelled.
- E-mail sending, templates, i18n message text and logging are not modelled. Errors carry a status only.
- Module wiring and the database configuration are not modelled. The `findAll` methods of the assignment, team, work-group, caregiver and patient services are not modelled either: they are plain unfiltered reads.
- The pass-through controllers of patients, caregivers, teams, work groups and assignments are not modelled. Their trivial DTOs are folded into the service parameters.
- `onDelete: 'CASCADE'` is not modelled: removing a team, user or work group leaves assignments and teams that refer to it.
- Text.ContainsIgnoringCase: `%` and `_` inside a filter are taken literally, not as LIKE wildcards. Only ASCII letters are case-folded.
- The `updateAt` and `deleted` columns are not modelled.
- Timestamps are integers supplied by the caller. Rows with equal creation times may come in any order.
- Numbers are integers. Fractional values, `bigint` columns and the precision of `parseInt` on very long digit strings are not modelled.
- A query parameter given several times (an array) is not modelled.
- Validation.Length counts code points. validator.js does not count U+FE0E and U+FE0F.
- CreateUserDto.Validate checks only the four decorated properties. `CreateUserDto` extends the `Person` entity, whose columns carry no validators, so the global `whitelist: true` pipe strips them. The `role` of the body is a `UserRole` value, while `createUser` reads `role.name_role`.
- UserService.CreateUser takes the document, names, e-mail, direction and role name the service reads. It does not follow the stripping and the enum/relation mismatch above through the ORM.
- RoleController.FindAllFiltered: its `FiltersRoleDto` is not part of this model. The role query is taken as already valid, with page and limit at least 1.
- UserController.CreateUser: takes the document, names, e-mail, direction and role name as `createUser` reads them, as if `CreateUserDto` validated the `Person` columns and `role` named a `Role` row. As written, the whitelist pipe strips those columns and `role` is an enum string, so every request answers 500; CreateUserAsWritten models that (see Findings).
- UserService.UpdateUser: `UpdateUserDto` (src/user/dto/updateUser.dto.ts) is not part of this model. The patch assumes that `document`, `name`, `lastName`, `email`, `direction`, `username`, `password` and `status` survive the whitelist pipe, and that `role` does not; `role` is not modelled as patchable. Which keys survive decides both the 400 for an empty body and what `Object.assign` changes; if the DTO is derived from `CreateUserDto`, the `Person` keys would be stripped as on creation.
- UserService.UpdateUser and the other update operations do not model an explicit `null` in the body, only absent or given values.
- Route ids: every handler declares `@Param('id') id: number`, but no `ParseIntPipe` and no `transform` option converts it, so the id reaches the service as the path text. A non-numeric id makes the database query fail (500, or 404 in `GET /users/:id`, whose catch answers every error with 404). Every model takes the id as an `int` and does not model this.
- The patient `idCard` is validated as a string but stored as `bigint`. It is modelled as an integer.
- Column widths are modelled for caregivers only.
- An explicit `null` in a caregiver update, which a NOT NULL column refuses, is not modelled; the update bodies hold absent or given values only.
- UserService.FindOneByDocument, and every member below that joins `role` or reads `resetPasswordToken`, follows the `User` entity the services are written against: `role` a relation to `Role` and a `resetPasswordToken` column. user.entity.ts declares neither (see Findings); the members named `…AsWritten` model the entity as declared.
- UserService.FindByOneById: as for FindOneByDocument, the role is the joined relation row.
- UserService.FindAllFilter: as for FindOneByDocument, the role filter reads the joined relation.
- UserService.FindOneByResetPasswordToken: reads a `resetPasswordToken` column the entity does not declare; FindOneByResetPasswordTokenAsWritten models the lookup as declared.
- AuthService.ValidateUser: the lookup joins the role relation as for FindOneByDocument. A `document` or `password` that is not a string (a number, an object) is not modelled; absent ones are.
- AuthService.Login: the same relation and body assumptions as ValidateUser; LoginAsWritten models the entity as declared.
- UserController.FindUserById: rests on the joined role relation; FindUserByIdAsWritten models the entity as declared.
- UserController.FindAllFiltered: rests on the joined role relation; FindAllFilteredAsWritten models the entity as declared.
- Caregivers.Update: an empty body makes `repository.update` throw in TypeORM. It is modelled as a merge that changes nothing.

## Findings

| source | as written | input that shows it | evidently intended | confidence | as-written member | corrected member |
|---|---|---|---|---|---|---|
| src/Caregiver/dto/createCaregiver.dto.ts:47-57 | `lastName`, `firstName` and `gender` carry only `@IsString() @IsNotEmpty()`, while their columns are `varchar(100)`, `varchar(100)` and `varchar(10)` | a body with `gender: "genderfluid"` (11 characters) and every other field valid: validation accepts it, the insert fails, and the client gets 500 instead of 400 | `@Length(1, 100)` on both names and `@Length(1, 10)` on the gender, as canton, parish and zone type already have | likely; not executed | CreateCaregiverDto.LongGenderPassesValidation | CreateCaregiverDto.FittedBodyIsStored |
| src/Caregiver/dto/createCaregiver.dto.ts:59-61 | `isActive` carries `@IsBoolean() @IsOptional()`, and `@IsOptional()` lets `null` through, while the column (caregiver.entity.ts:47-48) is a NOT NULL `boolean` with default `true`; `create` keeps the `null`, so NULL is inserted | a valid body with `"isActive": null`: validation accepts it, the insert fails, and the client gets 500 instead of 400 or a stored caregiver | `null` refused with 400, so that a stored caregiver is active unless the body says false | likely; not executed | CreateCaregiverDto.NullIsActivePassesValidation | CreateCaregiverDto.FittedBodyIsStored |
| src/user/user.entity.ts:18-23 | `role` is declared a `UserRole` enum column, while user.service.ts:35, 52 and 110 load it as the `role` relation, and `createUser` and the `role.name_role` filter read it as a `Role` row | any `POST /auth/login` body: the lookup of `validateUser` throws a non-HTTP error, so login answers 500 even for valid credentials | `role` a many-to-one relation to `Role` | likely; not executed | AuthService.LoginAsWritten | AuthService.Login |
| src/user/dto/createUser.dto.ts:11 | `CreateUserDto` extends the `Person` entity, whose columns carry no validator, so the global `whitelist: true` pipe (main.ts:14-19) strips `document`, `name`, `lastName`, `email` and `direction`; `role` is a `UserRole` string, and `createUser` (user.service.ts:152-179) reads `role.name_role` of it | any valid body: `findByName` runs with an undefined name, and the row saved has NULL in the NOT NULL `document` and `email` columns, so the save fails and the client gets 500 | the `Person` fields decorated so that they reach the service, and the role looked up by the name the body gives | likely; not executed | UserController.CreateUserAsWritten | UserController.CreateUser |
| src/user/user.service.ts:87-92 | the lookup filters on a `resetPasswordToken` property that neither user.entity.ts nor person.entity.ts declares | any token: the query throws a non-HTTP error instead of returning the user or answering 404 | a nullable `resetPasswordToken` column on `User` | likely; not executed | UserService.FindOneByResetPasswordTokenAsWritten | UserService.FindOneByResetPasswordToken |

=== FILE: app_module.dfy ===
/** `AppModule.configure` (src/app.module.ts): `AuthMiddleware` guards every route except
    three exact (path, method) pairs. */
module AppModule {
  import opened Http
  import Crypto
  import AuthMiddleware

  datatype RequestMethod = GET | POST | PUT | DELETE | PATCH | OPTIONS | HEAD

  /** A request's route, its path written without the leading slash as in `exclude`. */
  datatype Route = Route(path: string, verb: RequestMethod)

  /** Login, registration and role creation stay open. */
  const Exclusions: seq<Route> := [Route("auth/login", POST), Route("users", POST), Route("role", POST)]

  predicate Excluded(route: Route) {
    route in Exclusions
  }

  /** What happens to a request before it reaches a controller. */
  function Admit(route: Route, header: Option<string>, secret: string, crypto: Crypto.Primitives)
    : (d: AuthMiddleware.Decision)
    ensures Excluded(route) ==> d.Next?
    ensures !Excluded(route) ==> d == AuthMiddleware.Use(header, secret, crypto)
    ensures d.Reject? ==> d.status == Unauthorized
    ensures d.Next? <==>
      || Excluded(route)
      || (header.Some? && AuthMiddleware.Truthy(AuthMiddleware.TokenOf(header.value))
          && crypto.verify(AuthMiddleware.TokenOf(header.value).value, secret))
  {
    if Excluded(route) then AuthMiddleware.Next else AuthMiddleware.Use(header, secret, crypto)
  }

  /** The exclusion is per method: only `POST` is open on `users` and `role`, and every
      other path is guarded for every method. */
  lemma OpenRoutesAreExactlyThree(route: Route)
    ensures Excluded(route) <==>
      route.verb == POST && (route.path == "auth/login" || route.path == "users" || route.path == "role")
  {
  }

  /** Listing, reading, updating and deleting users or roles need a valid token. */
  lemma UnauthenticatedReadIsRejected(path: string, m: RequestMethod, secret: string, crypto: Crypto.Primitives)
    requires m != POST
    ensures Admit(Route(path, m), None, secret, crypto) == AuthMiddleware.Reject(Unauthorized, AuthMiddleware.HeaderMissing)
  {
  }

  /** The password-reset routes are not in the list, so they are behind the gate as well. */
  lemma ResetRoutesAreGuarded(header: Option<string>, secret: string, crypto: Crypto.Primitives)
    ensures Admit(Route("auth/request-reset-password", POST), header, secret, crypto)
      == AuthMiddleware.Use(header, secret, crypto)
    ensures Admit(Route("auth/reset-password", PATCH), header, secret, crypto)
      == AuthMiddleware.Use(header, secret, crypto)
  {
    assert Route("auth/request-reset-password", POST) !in Exclusions;
  }
}

=== FILE: assignments.dfy ===
/** `AssignmentsService` (src/assignment/assignments.service.ts): which user works in which
    team. The user and team stores enter only through their sets of keys. */
module Assignments {
  import opened Http
  import Store

  /** A stored assignment; `user` and `team` are the keys of the joined rows. */
  datatype Assignment = Assignment(userId: int, teamId: int, assignedAt: int)

  type Assignments = map<int, Assignment>

  /** Some assignment already links this user to this team. */
  predicate Paired(store: Assignments, userId: int, teamId: int) {
    exists k :: k in store && store[k].userId == userId && store[k].teamId == teamId
  }

  /** No (user, team) pair is stored twice. */
  predicate NoDuplicatePairs(store: Assignments) {
    forall a, b :: a in store && b in store && a != b ==>
      store[a].userId != store[b].userId || store[a].teamId != store[b].teamId
  }

  function FindByTeamId(store: Assignments, teamId: int): (r: Assignments)
    ensures forall k :: k in r <==> k in store && store[k].teamId == teamId
    ensures forall k :: k in r ==> r[k] == store[k]
  {
    map k | k in store && store[k].teamId == teamId :: store[k]
  }

  /** Every team's assignments together are all the assignments, each in exactly one team. */
  lemma TeamsPartitionAssignments(store: Assignments, t1: int, t2: int)
    ensures t1 != t2 ==> FindByTeamId(store, t1).Keys !! FindByTeamId(store, t2).Keys
    ensures forall k :: k in store ==> k in FindByTeamId(store, store[k].teamId)
  {
  }

  function Create(store: Assignments, users: set<int>, teams: set<int>, id: int, userId: int, teamId: int, now: int)
    : (r: Result<Saved<Assignments, Store.Entry<Assignment>>>)
    requires id !in store
    ensures r == Fail(HttpException(NotFound)) <==> userId !in users || teamId !in teams
    ensures r == Fail(PlainError) <==> userId in users && teamId in teams && Paired(store, userId, teamId)
    ensures r.Ok? <==> userId in users && teamId in teams && !Paired(store, userId, teamId)
    ensures r.Ok? ==> r.value.store.Keys == store.Keys + {id}
                      && (forall k :: k in store ==> r.value.store[k] == store[k])
                      && r.value.out == Store.Entry(id, r.value.store[id])
                      && r.value.store[id].userId == userId && r.value.store[id].teamId == teamId
    ensures r.Ok? && NoDuplicatePairs(store) ==> NoDuplicatePairs(r.value.store)
  {
    if userId !in users || teamId !in teams then Fail(HttpException(NotFound))
    else if Paired(store, userId, teamId) then Fail(PlainError)
    else
      var a := Assignment(userId, teamId, now);
      Ok(Saved(store[id := a], Store.Entry(id, a)))
  }

  /** The body of `PATCH /assignments/:id`. */
  datatype AssignmentPatch = AssignmentPatch(userId: Option<int>, teamId: Option<int>)

  /** A JavaScript-truthy id: present and not 0. */
  predicate Supplied(id: Option<int>) {
    id.Some? && id.value != 0
  }

  /** The patch names a user or a team that does not exist. */
  predicate Dangling(patch: AssignmentPatch, users: set<int>, teams: set<int>) {
    || (Supplied(patch.userId) && patch.userId.value !in users)
    || (Supplied(patch.teamId) && patch.teamId.value !in teams)
  }

  /** A supplied id must name an existing row: `findOneOrFail` throws a non-HTTP error
      otherwise. No duplicate-pair check is made. */
  function Update(store: Assignments, users: set<int>, teams: set<int>, id: int, patch: AssignmentPatch)
    : (r: Result<Saved<Assignments, Store.Entry<Assignment>>>)
    ensures id !in store <==> r == Fail(HttpException(NotFound))
    ensures r == Fail(PlainError) <==> id in store && Dangling(patch, users, teams)
    ensures r.Ok? <==> id in store && !Dangling(patch, users, teams)
    ensures r.Ok? ==> id in store && r.value.store == store[id := r.value.out.record] && r.value.out.id == id
    ensures r.Ok? ==> var (before, a) := (store[id], r.value.out.record);
      && a.userId == (if Supplied(patch.userId) then patch.userId.value else before.userId)
      && a.teamId == (if Supplied(patch.teamId) then patch.teamId.value else before.teamId)
      && a.assignedAt == before.assignedAt
  {
    if id !in store then Fail(HttpException(NotFound))
    else if Supplied(patch.userId) && patch.userId.value !in users then Fail(PlainError)
    else if Supplied(patch.teamId) && patch.teamId.value !in teams then Fail(PlainError)
    else
      var before := store[id];
      var a := before.(userId := if Supplied(patch.userId) then patch.userId.value else before.userId,
                       teamId := if Supplied(patch.teamId) then patch.teamId.value else before.teamId);
      Ok(Saved(store[id := a], Store.Entry(id, a)))
  }

  /** Unlike `Create`, `Update` can store a pair twice: moving assignment 2 onto the user of
      assignment 1 in the same team succeeds. */
  lemma UpdateCanDuplicatePair()
    ensures var store := map[1 := Assignment(7, 3, 0), 2 := Assignment(8, 3, 0)];
      && NoDuplicatePairs(store)
      && Update(store, {7, 8}, {3}, 2, AssignmentPatch(Some(7), None)).Ok?
      && !NoDuplicatePairs(Update(store, {7, 8}, {3}, 2, AssignmentPatch(Some(7), None)).value.store)
  {
    var store := map[1 := Assignment(7, 3, 0), 2 := Assignment(8, 3, 0)];
    var after := Update(store, {7, 8}, {3}, 2, AssignmentPatch(Some(7), None)).value.store;
    assert after[1] == after[2];
  }

  /** A zero id in the patch is ignored, like an absent one. */
  lemma ZeroIdIgnored(store: Assignments, users: set<int>, teams: set<int>, id: int)
    requires id in store
    ensures Update(store, users, teams, id, AssignmentPatch(Some(0), Some(0)))
         == Ok(Saved(store, Store.Entry(id, store[id])))
  {
    assert store[id := store[id]] == store;
  }

  /** `delete(id)` reports how many rows went; none means 404. */
  function Remove(store: Assignments, id: int): (r: Result<Assignments>)
    ensures r.Ok? <==> id in store
    ensures r.Fail? ==> r.error == HttpException(NotFound)
    ensures r.Ok? ==> r.value.Keys == store.Keys - {id} && forall k :: k in r.value ==> r.value[k] == store[k]
    ensures r.Ok? && NoDuplicatePairs(store) ==> NoDuplicatePairs(r.value)
  {
    if id in store then Ok(store - {id}) else Fail(HttpException(NotFound))
  }
}

=== FILE: auth_middleware.dfy ===
/** `AuthMiddleware.use` (src/middlewares/auth.middleware.ts): the bearer-token gate in
    front of every route that is not excluded. The token is the second space-separated
    word of the `Authorization` header; the first word is never looked at. */
module AuthMiddleware {
  import opened Http
  import Crypto

  /** Position of the first `c` in `s`. */
  function IndexOf(s: string, c: char): (i: nat)
    requires c in s
    ensures i < |s| && s[i] == c
    ensures forall j :: 0 <= j < i ==> s[j] != c
  {
    if s[0] == c then 0
    else
      assert s == [s[0]] + s[1..];
      IndexOf(s[1..], c) + 1
  }

  /** JavaScript `s.split(sep)` for a one-character separator: the maximal separator-free
      pieces, empty ones included. */
  function Split(s: string, sep: char): (parts: seq<string>)
    ensures |parts| >= 1
    ensures forall i :: 0 <= i < |parts| ==> sep !in parts[i]
    decreases |s|
  {
    if sep !in s then [s]
    else
      var i := IndexOf(s, sep);
      [s[..i]] + Split(s[i + 1..], sep)
  }

  /** `parts.join(sep)`. */
  function Join(parts: seq<string>, sep: char): string
    requires |parts| >= 1
    decreases |parts|
  {
    if |parts| == 1 then parts[0] else parts[0] + [sep] + Join(parts[1..], sep)
  }

  /** Splitting loses nothing: joining the pieces gives the text back. */
  lemma {:induction false} JoinSplit(s: string, sep: char)
    ensures Join(Split(s, sep), sep) == s
    decreases |s|
  {
    if sep in s {
      var i := IndexOf(s, sep);
      var parts := Split(s, sep);
      assert parts == [s[..i]] + Split(s[i + 1..], sep);
      assert parts[1..] == Split(s[i + 1..], sep);
      JoinSplit(s[i + 1..], sep);
      assert s == s[..i] + [sep] + s[i + 1..];
    }
  }

  /** Splitting a separator-free piece, a separator and more text yields the piece, then
      the pieces of the text. */
  lemma SplitAtFirst(a: string, sep: char, b: string)
    requires sep !in a
    ensures Split(a + [sep] + b, sep) == [a] + Split(b, sep)
  {
    var s := a + [sep] + b;
    assert s[|a|] == sep;
    assert forall j :: 0 <= j < |a| ==> s[j] == a[j];
    assert IndexOf(s, sep) == |a|;
    assert s[..|a|] == a;
    assert s[|a| + 1..] == b;
  }

  /** Joining separator-free pieces and splitting again gives the same pieces. */
  lemma {:induction false} SplitJoin(parts: seq<string>, sep: char)
    requires |parts| >= 1
    requires forall i :: 0 <= i < |parts| ==> sep !in parts[i]
    ensures Split(Join(parts, sep), sep) == parts
    decreases |parts|
  {
    if |parts| > 1 {
      var tail := parts[1..];
      forall i | 0 <= i < |tail|
        ensures sep !in tail[i]
      {
        assert tail[i] == parts[i + 1];
      }
      SplitAtFirst(parts[0], sep, Join(tail, sep));
      SplitJoin(tail, sep);
      assert parts == [parts[0]] + tail;
    }
  }

  /** `authHeader.split(' ')[1]`; `None` stands for `undefined`. */
  function TokenOf(header: string): Option<string> {
    var words := Split(header, ' ');
    if |words| >= 2 then Some(words[1]) else None
  }

  /** The three 401 answers, in the order they are checked. */
  datatype Rejection = HeaderMissing | TokenMissing | TokenInvalid

  datatype Decision = Next | Reject(status: int, reason: Rejection)

  /** `token` is present and non-empty, i.e. truthy. */
  predicate Truthy(token: Option<string>) {
    token.Some? && token.value != ""
  }

  /** The gate itself, `secret` being the configured `SECRET_KEY_JWT`. */
  function Use(header: Option<string>, secret: string, crypto: Crypto.Primitives): (d: Decision)
    ensures d.Reject? ==> d.status == Unauthorized
    ensures d == Reject(Unauthorized, HeaderMissing) <==> header.None? || header.value == ""
    ensures d == Reject(Unauthorized, TokenMissing) <==>
      header.Some? && header.value != "" && !Truthy(TokenOf(header.value))
    ensures d.Next? <==>
      header.Some? && Truthy(TokenOf(header.value)) && crypto.verify(TokenOf(header.value).value, secret)
  {
    if header.None? || header.value == "" then Reject(Unauthorized, HeaderMissing)
    else
      var token := TokenOf(header.value);
      if !Truthy(token) then Reject(Unauthorized, TokenMissing)
      else if crypto.verify(token.value, secret) then Next
      else Reject(Unauthorized, TokenInvalid)
  }

  /** The token is the second word whatever the first is: `Bearer`, `Basic` or anything. */
  lemma TokenIsSecondWord(scheme: string, token: string)
    requires ' ' !in scheme && ' ' !in token
    ensures TokenOf(scheme + " " + token) == Some(token)
  {
    var parts := [scheme, token];
    assert Join(parts[1..], ' ') == token;
    assert Join(parts, ' ') == scheme + " " + token;
    SplitJoin(parts, ' ');
  }

  /** So any scheme word passes the gate when a valid token follows it. */
  lemma SchemeIgnored(scheme: string, token: string, secret: string, crypto: Crypto.Primitives)
    requires ' ' !in scheme && ' ' !in token
    requires token != "" && crypto.verify(token, secret)
    ensures Use(Some(scheme + " " + token), secret, crypto) == Next
  {
    TokenIsSecondWord(scheme, token);
  }

  /** A header without a space has no second word, so it is rejected as lacking a token. */
  lemma SingleWordRejected(header: string, secret: string, crypto: Crypto.Primitives)
    requires header != "" && ' ' !in header
    ensures Use(Some(header), secret, crypto) == Reject(Unauthorized, TokenMissing)
  {
  }

  /** `"Bearer "` splits into `"Bearer"` and an empty token, which counts as missing. */
  lemma EmptyBearerRejected(secret: string, crypto: Crypto.Primitives)
    ensures Use(Some("Bearer "), secret, crypto) == Reject(Unauthorized, TokenMissing)
  {
    TokenIsSecondWord("Bearer", "");
    assert "Bearer" + " " + "" == "Bearer ";
    assert TokenOf("Bearer ") == Some("");
  }
}

=== FILE: auth_service.dfy ===
/** `AuthService` (src/auth/auth.service.ts): credential check and session issue. */
module AuthService {
  import opened Http
  import Crypto
  import Store
  import RoleService
  import UserService
  import UserEntity

  /** The `document` and `password` of the `POST /auth/login` body. The body is read
      without a DTO, so either field may be absent (`undefined`). */
  datatype Credentials = Credentials(document: Option<string>, password: Option<string>)

  /** The public projection `login` returns: id, document, name and role, and nothing else. */
  datatype LoginUser = LoginUser(id: int, document: string, name: Option<string>, role: RoleService.RoleRow)

  datatype Session = Session(user: LoginUser, accessToken: string)

  /** Some stored user has this document and a hash the password matches. */
  predicate Authentic(users: UserService.Users, document: string, password: string, crypto: Crypto.Primitives) {
    exists k :: k in users && users[k].document == document && crypto.matches(password, users[k].password)
  }

  /** The `where: { document }` of the lookup: TypeORM drops an `undefined` value, so without
      a document the lookup matches any user. */
  predicate Matches(document: Option<string>, u: UserService.User) {
    document.None? || u.document == document.value
  }

  /** `findOneByDocument(document)` for a document that may be absent. */
  method LookUp(users: UserService.Users, document: Option<string>) returns (r: Result<Store.Entry<UserService.User>>)
    ensures r.Ok? ==> Store.Holds(users, r.value) && Matches(document, r.value.record)
    ensures r.Fail? <==> forall k :: k in users ==> !Matches(document, users[k])
    ensures r.Fail? ==> r.error == HttpException(NotFound)
    ensures UserService.Unique(users) && document.Some? && r.Ok? ==>
      forall k :: k in users && users[k].document == document.value ==> k == r.value.id
  {
    if document.Some? {
      r := UserService.FindOneByDocument(users, document.value);
    } else {
      r := UserService.FindOneWhere(users, (u: UserService.User) => Matches(document, u));
    }
  }

  /** `bcrypt.compare` throws on an `undefined` password, a plain error. */
  method ValidateUser(users: UserService.Users, document: Option<string>, password: Option<string>, crypto: Crypto.Primitives)
    returns (r: Result<Store.Entry<UserService.User>>)
    ensures r.Ok? ==> Store.Holds(users, r.value) && Matches(document, r.value.record)
                      && password.Some? && crypto.matches(password.value, r.value.record.password)
    ensures (forall k :: k in users ==> !Matches(document, users[k])) <==> r == Fail(HttpException(NotFound))
    ensures r == Fail(PlainError) <==> password.None? && exists k :: k in users && Matches(document, users[k])
    ensures r.Fail? ==> r.error in {HttpException(NotFound), HttpException(Unauthorized), PlainError}
    ensures r == Fail(HttpException(Unauthorized)) ==>
      && password.Some?
      && exists k :: k in users && Matches(document, users[k]) && !crypto.matches(password.value, users[k].password)
    ensures UserService.Unique(users) && document.Some? ==>
      (r.Ok? <==> password.Some? && Authentic(users, document.value, password.value, crypto))
  {
    var found := LookUp(users, document);
    if found.Fail? {
      return Fail(HttpException(NotFound));
    }
    if password.None? {
      return Fail(PlainError);
    }
    if !crypto.matches(password.value, found.value.record.password) {
      return Fail(HttpException(Unauthorized));
    }
    return found;
  }

  /** The `catch` of `login`: a 404 or 401 is rethrown with its status, anything else
      becomes a 500. */
  function LoginFailure(e: Exception): (out: Exception)
    ensures e == HttpException(NotFound) || e == HttpException(Unauthorized) ==> out == e
    ensures !(e == HttpException(NotFound) || e == HttpException(Unauthorized)) ==>
      out == HttpException(InternalServerError)
  {
    match e
    case HttpException(status) =>
      if status == NotFound || status == Unauthorized then e else HttpException(InternalServerError)
    case PlainError => HttpException(InternalServerError)
  }

  /** The response of a successful login of the user stored under `id`. */
  function SessionOf(id: int, u: UserService.User, crypto: Crypto.Primitives): Session {
    Session(LoginUser(id, u.document, u.name, u.role), crypto.sign(Crypto.Payload(id, u.document)))
  }

  method Login(users: UserService.Users, creds: Credentials, crypto: Crypto.Primitives) returns (r: Result<Session>)
    ensures r.Ok? ==> var id := r.value.user.id;
      && id in users && Matches(creds.document, users[id])
      && creds.password.Some? && crypto.matches(creds.password.value, users[id].password)
      && r.value.accessToken == crypto.sign(Crypto.Payload(id, users[id].document))
      && r.value.user == LoginUser(id, users[id].document, users[id].name, users[id].role)
    ensures (forall k :: k in users ==> !Matches(creds.document, users[k])) <==> r == Fail(HttpException(NotFound))
    ensures r == Fail(HttpException(InternalServerError)) <==>
      creds.password.None? && exists k :: k in users && Matches(creds.document, users[k])
    ensures r.Fail? ==> r.error in {HttpException(NotFound), HttpException(Unauthorized), HttpException(InternalServerError)}
    ensures r == Fail(HttpException(Unauthorized)) ==>
      && creds.password.Some?
      && exists k :: k in users && Matches(creds.document, users[k]) && !crypto.matches(creds.password.value, users[k].password)
    ensures UserService.Unique(users) && creds.document.Some? ==>
      (r.Ok? <==> creds.password.Some? && Authentic(users, creds.document.value, creds.password.value, crypto))
  {
    var valid := ValidateUser(users, creds.document, creds.password, crypto);
    if valid.Fail? {
      return Fail(LoginFailure(valid.error));
    }
    return Ok(SessionOf(valid.value.id, valid.value.record, crypto));
  }

  /** With unique documents, a document found but a password not matching fails with 401
      and only then. */
  method LoginRejectsWrongPassword(users: UserService.Users, creds: Credentials, crypto: Crypto.Primitives)
    returns (r: Result<Session>)
    requires UserService.Unique(users)
    ensures creds.document.Some? ==>
      (r == Fail(HttpException(Unauthorized)) <==>
        && creds.password.Some?
        && (exists k :: k in users && users[k].document == creds.document.value)
        && !Authentic(users, creds.document.value, creds.password.value, crypto))
  {
    r := Login(users, creds, crypto);
  }

  /** A body without a document logs in as a stored user whose hash the password matches:
      with a single user, as that user. */
  method MissingDocumentLogsInAnyone(k: int, u: UserService.User, password: string, crypto: Crypto.Primitives)
    returns (r: Result<Session>)
    requires crypto.matches(password, u.password)
    ensures r.Ok? && r.value.user.id == k && r.value.user.document == u.document
  {
    var users := map[k := u];
    r := Login(users, Credentials(None, Some(password)), crypto);
    assert k in users && Matches(None, users[k]);
  }

  /** `login` against the `User` entity as declared: the lookup of `validateUser` joins
      `role`, a plain enum column there, so it throws before reading any user and the
      `catch` answers 500 to every body. */
  method LoginAsWritten(users: UserService.Users, creds: Credentials, crypto: Crypto.Primitives)
    returns (r: Result<Session>)
    ensures r == Fail(HttpException(InternalServerError))
  {
    var looked := LookUp(users, creds.document);
    var found := UserEntity.Run(UserEntity.Declared, UserEntity.ByDocument, looked);
    UserEntity.DeclaredRejectsServiceQueries(looked);
    r := Fail(LoginFailure(found.error));
  }
}

=== FILE: caregivers.dfy ===
/** `CaregiversService` (src/Caregiver/caregivers.service.ts): caregivers and their
    soft deletion through `isActive`. */
module Caregivers {
  import opened Http
  import Store

  /** A stored caregiver (src/Caregiver/entities/caregiver.entity.ts). Nullable columns are
      `Option`s; `bigint` phone numbers and document ids are integers. */
  datatype Caregiver = Caregiver(
    canton: string,
    parish: string,
    zoneType: string,
    address: string,
    reference: Option<string>,
    landline1: Option<int>,
    landline2: Option<int>,
    mobile1: Option<int>,
    mobile2: Option<int>,
    documentId: int,
    lastName: string,
    firstName: string,
    gender: string,
    isActive: bool
  )

  type Caregivers = map<int, Caregiver>

  /** A property of a body that may be left out, sent as `null`, or given. */
  datatype Nullable<T> = Undefined | Null | Defined(value: T)

  /** A validated `CreateCaregiverDto`. The optional columns are nullable, so an absent and a
      `null` value both store NULL there; `isActive` keeps the difference, because its column
      is not nullable. */
  datatype NewCaregiver = NewCaregiver(
    canton: string,
    parish: string,
    zoneType: string,
    address: string,
    reference: Option<string>,
    landline1: Option<int>,
    landline2: Option<int>,
    mobile1: Option<int>,
    mobile2: Option<int>,
    documentId: int,
    lastName: string,
    firstName: string,
    gender: string,
    isActive: Nullable<bool>
  )

  function FindOne(caregivers: Caregivers, id: int): (r: Result<Store.Entry<Caregiver>>)
    ensures r.Ok? <==> id in caregivers
    ensures r.Ok? ==> Store.Holds(caregivers, r.value) && r.value.id == id
    ensures r.Fail? ==> r.error == HttpException(NotFound)
  {
    if id in caregivers then Ok(Store.Entry(id, caregivers[id])) else Fail(HttpException(NotFound))
  }

  /** PostgreSQL takes a text into a `varchar(n)` column when it is at most n characters
      long or every character past the n-th is a space. */
  predicate Accepts(s: string, n: nat) {
    forall i :: n <= i < |s| ==> s[i] == ' '
  }

  /** What such a column then holds: the text cut to n characters. */
  function Cut(s: string, n: nat): (t: string)
    ensures |t| <= n || t == s
  {
    if |s| <= n then s else s[..n]
  }

  /** `t` is what a `varchar(n)` column keeps of `s`: its first n characters, or all of it. */
  predicate Kept(s: string, n: nat, t: string) {
    t <= s && |t| == (if |s| <= n then |s| else n)
  }

  /** Only trailing spaces are lost: an accepted text is what the column keeps followed by
      spaces, and a text that fits is kept whole. */
  lemma CutLosesOnlySpaces(s: string, n: nat)
    requires Accepts(s, n)
    ensures Kept(s, n, Cut(s, n))
    ensures s == Cut(s, n) + s[|Cut(s, n)|..]
    ensures forall i :: |Cut(s, n)| <= i < |s| ==> s[i] == ' '
    ensures |s| <= n ==> Cut(s, n) == s
  {
  }

  /** The `varchar` widths of the entity: 100 for canton, parish and both names, 50 for the
      zone type, 10 for the gender. */
  predicate Fits(c: Caregiver) {
    && |c.canton| <= 100 && |c.parish| <= 100 && |c.zoneType| <= 50
    && |c.lastName| <= 100 && |c.firstName| <= 100 && |c.gender| <= 10
  }

  /** Every stored row respects the column widths, as the database enforces. */
  predicate AllFit(caregivers: Caregivers) {
    forall k :: k in caregivers ==> Fits(caregivers[k])
  }

  /** The texts of the body are within their column widths as sent. */
  predicate WithinWidths(dto: NewCaregiver) {
    && |dto.canton| <= 100 && |dto.parish| <= 100 && |dto.zoneType| <= 50
    && |dto.lastName| <= 100 && |dto.firstName| <= 100 && |dto.gender| <= 10
  }

  /** The insert succeeds: `isActive` is not `null`, which the NOT NULL column refuses, and
      every text is accepted by its column. */
  predicate Insertable(dto: NewCaregiver) {
    && !dto.isActive.Null?
    && Accepts(dto.canton, 100) && Accepts(dto.parish, 100) && Accepts(dto.zoneType, 50)
    && Accepts(dto.lastName, 100) && Accepts(dto.firstName, 100) && Accepts(dto.gender, 10)
  }

  /** The row `save(create(dto))` inserts: texts as their columns keep them, and the column
      default `true` for an absent `isActive`. */
  function Row(dto: NewCaregiver): Caregiver {
    Caregiver(Cut(dto.canton, 100), Cut(dto.parish, 100), Cut(dto.zoneType, 50), dto.address,
              dto.reference, dto.landline1, dto.landline2, dto.mobile1, dto.mobile2, dto.documentId,
              Cut(dto.lastName, 100), Cut(dto.firstName, 100), Cut(dto.gender, 10),
              if dto.isActive.Defined? then dto.isActive.value else true)
  }

  /** `save(create(dto))`; a `null` `isActive` or a text its column refuses makes the insert
      fail with a plain database error. */
  function Create(caregivers: Caregivers, id: int, dto: NewCaregiver): (r: Result<Saved<Caregivers, Store.Entry<Caregiver>>>)
    requires id !in caregivers
    ensures r.Fail? <==> !Insertable(dto)
    ensures r.Fail? ==> r.error == PlainError
    ensures dto.isActive.Null? ==> r == Fail(PlainError)
    ensures r.Ok? ==> r.value.store.Keys == caregivers.Keys + {id}
                      && (forall k :: k in caregivers ==> r.value.store[k] == caregivers[k])
                      && r.value.out == Store.Entry(id, r.value.store[id])
    ensures r.Ok? ==> var c := r.value.store[id];
      && Kept(dto.canton, 100, c.canton) && Kept(dto.parish, 100, c.parish)
      && Kept(dto.zoneType, 50, c.zoneType) && c.address == dto.address && c.reference == dto.reference
      && c.landline1 == dto.landline1 && c.landline2 == dto.landline2
      && c.mobile1 == dto.mobile1 && c.mobile2 == dto.mobile2 && c.documentId == dto.documentId
      && Kept(dto.lastName, 100, c.lastName) && Kept(dto.firstName, 100, c.firstName)
      && Kept(dto.gender, 10, c.gender)
      && (c.isActive <==> dto.isActive != Defined(false))
    ensures r.Ok? && WithinWidths(dto) ==> var c := r.value.store[id];
      && c.canton == dto.canton && c.parish == dto.parish && c.zoneType == dto.zoneType
      && c.lastName == dto.lastName && c.firstName == dto.firstName && c.gender == dto.gender
    ensures r.Ok? && AllFit(caregivers) ==> AllFit(r.value.store)
  {
    if !Insertable(dto) then Fail(PlainError)
    else
      var c := Row(dto);
      Ok(Saved(caregivers[id := c], Store.Entry(id, c)))
  }

  /** A validated `UpdateCaregiverDto`: every field optional. */
  datatype CaregiverPatch = CaregiverPatch(
    canton: Option<string>,
    parish: Option<string>,
    zoneType: Option<string>,
    address: Option<string>,
    reference: Option<string>,
    landline1: Option<int>,
    landline2: Option<int>,
    mobile1: Option<int>,
    mobile2: Option<int>,
    documentId: Option<int>,
    lastName: Option<string>,
    firstName: Option<string>,
    gender: Option<string>,
    isActive: Option<bool>
  )

  /** A supplied text is accepted by a `varchar(n)` column; an absent one sets nothing. */
  predicate AcceptsGiven(given: Option<string>, n: nat) {
    given.Some? ==> Accepts(given.value, n)
  }

  /** Every text the patch supplies is accepted by its column. */
  predicate Updatable(p: CaregiverPatch) {
    && AcceptsGiven(p.canton, 100) && AcceptsGiven(p.parish, 100) && AcceptsGiven(p.zoneType, 50)
    && AcceptsGiven(p.lastName, 100) && AcceptsGiven(p.firstName, 100) && AcceptsGiven(p.gender, 10)
  }

  /** A supplied text as a `varchar(n)` column keeps it. */
  function CutGiven(given: Option<string>, n: nat): Option<string> {
    if given.Some? then Some(Cut(given.value, n)) else None
  }

  /** The columns `update(id, dto)` sets. */
  function Merge(c: Caregiver, p: CaregiverPatch): Caregiver {
    Caregiver(
      Store.Pick(CutGiven(p.canton, 100), c.canton), Store.Pick(CutGiven(p.parish, 100), c.parish),
      Store.Pick(CutGiven(p.zoneType, 50), c.zoneType), Store.Pick(p.address, c.address),
      Store.PickOptional(p.reference, c.reference),
      Store.PickOptional(p.landline1, c.landline1), Store.PickOptional(p.landline2, c.landline2),
      Store.PickOptional(p.mobile1, c.mobile1), Store.PickOptional(p.mobile2, c.mobile2),
      Store.Pick(p.documentId, c.documentId), Store.Pick(CutGiven(p.lastName, 100), c.lastName),
      Store.Pick(CutGiven(p.firstName, 100), c.firstName), Store.Pick(CutGiven(p.gender, 10), c.gender),
      Store.Pick(p.isActive, c.isActive))
  }

  /** A `varchar(n)` column after a merge: what the column keeps of the supplied text, or
      the old value. */
  predicate AssignedText(given: Option<string>, n: nat, before: string, after: string) {
    (given.Some? ==> Kept(given.value, n, after)) && (given.None? ==> after == before)
  }

  /** Every column of `after` is the patch's value where one was given and `before`'s elsewhere. */
  predicate MergedFrom(before: Caregiver, p: CaregiverPatch, after: Caregiver) {
    && AssignedText(p.canton, 100, before.canton, after.canton)
    && AssignedText(p.parish, 100, before.parish, after.parish)
    && AssignedText(p.zoneType, 50, before.zoneType, after.zoneType)
    && Store.Assigned(p.address, before.address, after.address)
    && Store.AssignedOptional(p.reference, before.reference, after.reference)
    && Store.AssignedOptional(p.landline1, before.landline1, after.landline1)
    && Store.AssignedOptional(p.landline2, before.landline2, after.landline2)
    && Store.AssignedOptional(p.mobile1, before.mobile1, after.mobile1)
    && Store.AssignedOptional(p.mobile2, before.mobile2, after.mobile2)
    && Store.Assigned(p.documentId, before.documentId, after.documentId)
    && AssignedText(p.lastName, 100, before.lastName, after.lastName)
    && AssignedText(p.firstName, 100, before.firstName, after.firstName)
    && AssignedText(p.gender, 10, before.gender, after.gender)
    && Store.Assigned(p.isActive, before.isActive, after.isActive)
  }

  /** The merge sets exactly the supplied columns, and keeps a row within its widths. */
  lemma MergeIsAssignment(c: Caregiver, p: CaregiverPatch)
    ensures MergedFrom(c, p, Merge(c, p))
    ensures Fits(c) ==> Fits(Merge(c, p))
  {
    PickCut(p.canton, 100, c.canton);
    PickCut(p.parish, 100, c.parish);
    PickCut(p.zoneType, 50, c.zoneType);
    PickCut(p.lastName, 100, c.lastName);
    PickCut(p.firstName, 100, c.firstName);
    PickCut(p.gender, 10, c.gender);
  }

  /** One `varchar(n)` column of a merge. */
  lemma PickCut(given: Option<string>, n: nat, before: string)
    ensures AssignedText(given, n, before, Store.Pick(CutGiven(given, n), before))
    ensures |before| <= n ==> |Store.Pick(CutGiven(given, n), before)| <= n
  {
  }

  /** `update` runs first: it touches no row for an unknown id, and fails with a plain
      database error when a supplied text is refused by its column. The `findOne` after it
      then fails with 404 for an unknown id. */
  function Update(caregivers: Caregivers, id: int, patch: CaregiverPatch): (r: Result<Saved<Caregivers, Store.Entry<Caregiver>>>)
    ensures id !in caregivers <==> r == Fail(HttpException(NotFound))
    ensures r == Fail(PlainError) <==> id in caregivers && !Updatable(patch)
    ensures r.Ok? <==> id in caregivers && Updatable(patch)
    ensures r.Ok? ==> r.value.store == caregivers[id := r.value.out.record] && r.value.out.id == id
    ensures r.Ok? ==> MergedFrom(caregivers[id], patch, r.value.out.record)
    ensures r.Ok? && AllFit(caregivers) ==> AllFit(r.value.store)
  {
    if id in caregivers && !Updatable(patch) then Fail(PlainError)
    else
      var after :=
        if id in caregivers then (MergeIsAssignment(caregivers[id], patch); caregivers[id := Merge(caregivers[id], patch)])
        else caregivers;
      var found := FindOne(after, id);
      if found.Fail? then Fail(found.error) else Ok(Saved(after, found.value))
  }

  /** Sets `isActive` to false and keeps every other column. */
  function Disable(caregivers: Caregivers, id: int): (r: Result<Saved<Caregivers, Store.Entry<Caregiver>>>)
    ensures r.Ok? <==> id in caregivers
    ensures r.Fail? ==> r.error == HttpException(NotFound)
    ensures r.Ok? ==> r.value.store == caregivers[id := r.value.out.record] && r.value.out.id == id
    ensures r.Ok? ==> !r.value.out.record.isActive
                      && r.value.out.record == caregivers[id].(isActive := r.value.out.record.isActive)
    ensures r.Ok? && AllFit(caregivers) ==> AllFit(r.value.store)
  {
    if id !in caregivers then Fail(HttpException(NotFound))
    else
      var c := caregivers[id].(isActive := false);
      Ok(Saved(caregivers[id := c], Store.Entry(id, c)))
  }

  /** Disabling twice is disabling once. */
  lemma DisableIsIdempotent(caregivers: Caregivers, id: int)
    requires id in caregivers
    ensures Disable(Disable(caregivers, id).value.store, id) == Disable(caregivers, id)
  {
    var once := Disable(caregivers, id).value.store;
    assert once[id := once[id]] == once;
  }

  /** Disabling is the update that supplies only `isActive := false`. */
  lemma DisableIsDeactivatingUpdate(caregivers: Caregivers, id: int)
    ensures Disable(caregivers, id)
         == Update(caregivers, id, CaregiverPatch(None, None, None, None, None, None, None, None, None, None, None, None, None, Some(false)))
  {
  }
}

=== FILE: create_caregiver_dto.dfy ===
/** `CreateCaregiverDto` (src/Caregiver/dto/createCaregiver.dto.ts): the body of
    `POST /caregivers` as the validation pipe checks it, and how its bounds compare with the
    column widths of the entity. */
module CreateCaregiverDto {
  import opened Http
  import opened Validation
  import Caregivers

  datatype Body = Body(
    canton: Value,
    parish: Value,
    zoneType: Value,
    address: Value,
    reference: Value,
    landline1: Value,
    landline2: Value,
    mobile1: Value,
    mobile2: Value,
    documentId: Value,
    lastName: Value,
    firstName: Value,
    gender: Value,
    isActive: Value
  )

  /** The decorators as written: only canton, parish and zone type carry a `@Length`. */
  predicate Accepted(b: Body) {
    && RequiredText(b.canton, Some(100)) && RequiredText(b.parish, Some(100))
    && RequiredText(b.zoneType, Some(50)) && RequiredText(b.address, None)
    && OptionalWith(b.reference, IsString)
    && OptionalWith(b.landline1, IsNumber) && OptionalWith(b.landline2, IsNumber)
    && OptionalWith(b.mobile1, IsNumber) && OptionalWith(b.mobile2, IsNumber)
    && IsNumber(b.documentId) && IsNotEmpty(b.documentId)
    && RequiredText(b.lastName, None) && RequiredText(b.firstName, None)
    && RequiredText(b.gender, None)
    && OptionalWith(b.isActive, IsBoolean)
  }

  /** An optional property as the service receives it; `null` and absent both leave the column unset. */
  function OptionalText(v: Value): (r: Option<string>)
    ensures r.Some? <==> v.Str?
    ensures r.Some? ==> v == Str(r.value)
  {
    if v.Str? then Some(v.text) else None
  }

  function OptionalNumber(v: Value): (r: Option<int>)
    ensures r.Some? <==> v.Num?
    ensures r.Some? ==> v == Num(r.value)
  {
    if v.Num? then Some(v.n) else None
  }

  /** `isActive` as the service receives it: `@IsOptional()` lets `null` through, and it
      stays distinct from an absent value. */
  function OptionalFlag(v: Value): (r: Caregivers.Nullable<bool>)
    ensures r.Defined? <==> v.Bool?
    ensures r.Defined? ==> v == Bool(r.value)
    ensures r.Null? <==> v == Null
    ensures r.Undefined? <==> !v.Bool? && v != Null
  {
    match v
    case Bool(b) => Caregivers.Defined(b)
    case Null => Caregivers.Null
    case _ => Caregivers.Undefined
  }

  /** The DTO the service is handed once the body is accepted. */
  function Dto(b: Body): (d: Caregivers.NewCaregiver)
    requires Accepted(b)
    ensures Str(d.canton) == b.canton && Str(d.parish) == b.parish && Str(d.zoneType) == b.zoneType
    ensures Str(d.address) == b.address && Num(d.documentId) == b.documentId
    ensures Str(d.lastName) == b.lastName && Str(d.firstName) == b.firstName && Str(d.gender) == b.gender
    ensures d.isActive == OptionalFlag(b.isActive)
    ensures b.isActive == Missing ==> d.isActive.Undefined?
  {
    Caregivers.NewCaregiver(
      b.canton.text, b.parish.text, b.zoneType.text, b.address.text, OptionalText(b.reference),
      OptionalNumber(b.landline1), OptionalNumber(b.landline2),
      OptionalNumber(b.mobile1), OptionalNumber(b.mobile2), b.documentId.n,
      b.lastName.text, b.firstName.text, b.gender.text, OptionalFlag(b.isActive))
  }

  /** The pipe: an accepted body becomes the DTO, any other is answered 400. */
  function Validate(b: Body): (r: Result<Caregivers.NewCaregiver>)
    ensures r.Ok? <==> Accepted(b)
    ensures r.Ok? ==> r.value == Dto(b)
    ensures r.Fail? ==> r.error == HttpException(BadRequest)
  {
    if Accepted(b) then Ok(Dto(b)) else Fail(HttpException(BadRequest))
  }

  /** The three bounded properties always fit their columns. */
  lemma BoundedColumnsFit(b: Body)
    requires Accepted(b)
    ensures var d := Dto(b); |d.canton| <= 100 && |d.parish| <= 100 && |d.zoneType| <= 50
  {
  }

  /** The validator lets through a gender whose eleventh or later character is not a
      space, which the `varchar(10)` column refuses: the request is accepted and the insert
      fails with a plain error. */
  lemma WideGenderPassesValidation(caregivers: Caregivers.Caregivers, id: int, b: Body)
    requires id !in caregivers
    requires Accepted(b) && !Caregivers.Accepts(b.gender.text, 10)
    ensures Validate(b).Ok?
    ensures Caregivers.Create(caregivers, id, Validate(b).value) == Fail(PlainError)
  {
    assert Dto(b).gender == b.gender.text;
  }

  /** Such a body: gender `genderfluid`, eleven characters, every other field valid. */
  lemma LongGenderPassesValidation(caregivers: Caregivers.Caregivers, id: int)
    requires id !in caregivers
    ensures var b := Body(Str("Centro"), Str("Matriz"), Str("urbana"), Str("Calle 1"), Missing,
                          Missing, Missing, Missing, Missing, Num(1712345678),
                          Str("Zea"), Str("Miguel"), Str("genderfluid"), Missing);
      && Validate(b).Ok?
      && Caregivers.Create(caregivers, id, Validate(b).value) == Fail(PlainError)
  {
    var b := Body(Str("Centro"), Str("Matriz"), Str("urbana"), Str("Calle 1"), Missing,
                  Missing, Missing, Missing, Missing, Num(1712345678),
                  Str("Zea"), Str("Miguel"), Str("genderfluid"), Missing);
    assert b.gender.text[10] == 'd';
    assert RequiredText(b.canton, Some(100)) && RequiredText(b.parish, Some(100)) && RequiredText(b.zoneType, Some(50));
    WideGenderPassesValidation(caregivers, id, b);
  }

  /** `@IsOptional()` lets an explicit `isActive: null` through, and the insert of NULL into
      the NOT NULL column fails with a plain error, whatever the other fields. */
  lemma NullIsActivePassesValidation(caregivers: Caregivers.Caregivers, id: int, b: Body)
    requires id !in caregivers
    requires Accepted(b.(isActive := Missing))
    ensures Validate(b.(isActive := Null)).Ok?
    ensures Caregivers.Create(caregivers, id, Validate(b.(isActive := Null)).value) == Fail(PlainError)
  {
    assert Accepted(b.(isActive := Null));
  }

  /** The decorators the columns call for: `@Length(1, 100)` on both names,
      `@Length(1, 10)` on the gender, and no `null` for `isActive`. */
  predicate AcceptedFitted(b: Body) {
    && Accepted(b)
    && Length(b.lastName, 1, 100) && Length(b.firstName, 1, 100) && Length(b.gender, 1, 10)
    && b.isActive != Null
  }

  function ValidateFitted(b: Body): (r: Result<Caregivers.NewCaregiver>)
    ensures r.Ok? <==> AcceptedFitted(b)
    ensures r.Ok? ==> r.value == Dto(b)
    ensures r.Fail? ==> r.error == HttpException(BadRequest)
  {
    if AcceptedFitted(b) then Ok(Dto(b)) else Fail(HttpException(BadRequest))
  }

  /** With the corrected decorators, a body passes exactly when it passes them as written,
      its texts are within their column widths and `isActive` is not `null`. */
  lemma FittedIsAcceptedAndFits(b: Body)
    ensures ValidateFitted(b).Ok? <==>
      && Validate(b).Ok?
      && Caregivers.WithinWidths(Validate(b).value)
      && !Validate(b).value.isActive.Null?
  {
  }

  /** With the corrected decorators, every accepted body is stored, each text exactly as sent. */
  lemma FittedBodyIsStored(caregivers: Caregivers.Caregivers, id: int, b: Body)
    requires id !in caregivers
    requires ValidateFitted(b).Ok?
    ensures var r := Caregivers.Create(caregivers, id, ValidateFitted(b).value);
      && r.Ok?
      && Str(r.value.store[id].gender) == b.gender
      && Str(r.value.store[id].lastName) == b.lastName && Str(r.value.store[id].firstName) == b.firstName
      && Str(r.value.store[id].canton) == b.canton && Str(r.value.store[id].parish) == b.parish
      && Str(r.value.store[id].zoneType) == b.zoneType
  {
    FittedIsAcceptedAndFits(b);
  }
}

=== FILE: create_user_dto.dfy ===
/** `CreateUserDto` (src/user/dto/createUser.dto.ts): the decorated fields of the body of
    `POST /users`. The role enumeration is a parameter. */
module CreateUserDto {
  import opened Http
  import opened Validation

  datatype Body = Body(username: Value, role: Value, password: Value, status: Value)

  datatype Checked = Checked(username: string, role: string, password: string, status: bool)

  /** `@IsEnum(UserRole)`: one of the enumeration's values. */
  predicate IsEnum(v: Value, values: set<string>) {
    v.Str? && v.text in values
  }

  function Validate(b: Body, userRoles: set<string>): (r: Result<Checked>)
    ensures r.Ok? <==> && b.username.Str? && b.username.text != ""
                       && b.role.Str? && b.role.text in userRoles && b.role.text != ""
                       && b.password.Str? && 6 <= |b.password.text| <= 20
                       && b.status.Bool?
    ensures r.Fail? ==> r.error == HttpException(BadRequest)
    ensures r.Ok? ==> b == Body(Str(r.value.username), Str(r.value.role), Str(r.value.password), Bool(r.value.status))
  {
    var usernameOk := IsString(b.username) && IsNotEmpty(b.username);
    var roleOk := IsEnum(b.role, userRoles) && IsNotEmpty(b.role);
    var passwordOk := IsString(b.password) && IsNotEmpty(b.password) && Length(b.password, 6, 20);
    var statusOk := IsBoolean(b.status) && IsNotEmpty(b.status);
    if usernameOk && roleOk && passwordOk && statusOk then
      Ok(Checked(b.username.text, b.role.text, b.password.text, b.status.b))
    else Fail(HttpException(BadRequest))
  }

  /** The password bound alone decides between two otherwise valid bodies. */
  lemma PasswordBoundDecides(username: string, role: string, userRoles: set<string>, password: string, status: bool)
    requires username != "" && role != "" && role in userRoles
    ensures Validate(Body(Str(username), Str(role), Str(password), Bool(status)), userRoles).Ok?
        <==> 6 <= |password| <= 20
  {
  }
}

=== FILE: crypto.dfy ===
/** The cryptographic libraries the backend calls (bcryptjs and jsonwebtoken), as
    uninterpreted functions supplied by the caller. Nothing is assumed about them. */
module Crypto {

  /** The claims `AuthService.login` signs. */
  datatype Payload = Payload(sub: int, document: string)

  datatype Primitives = Primitives(
    /** `bcrypt.hash(plain, 10)` */
    hash: string -> string,
    /** `bcrypt.compare(plain, hash)` */
    matches: (string, string) -> bool,
    /** `JwtService.sign(payload)` with the configured secret */
    sign: Payload -> string,
    /** `jwt.verify(token, secret)` does not throw */
    verify: (string, string) -> bool
  )
}

=== FILE: filters_user_dto.dfy ===
/** `FiltersUserDto` (src/user/dto/filtersUser.dto.ts): the query of `GET /users`. Each
    present value is a string; the transforms run first, then the decorators. */
module FiltersUserDto {
  import opened Http
  import opened Validation
  import ParseInt
  import Store
  import UserService

  /** The raw query; `None` is a parameter that was not sent. */
  datatype Query = Query(username: Option<string>, nameRole: Option<string>, page: Option<string>, limit: Option<string>)

  /** `value || undefined`: the empty string counts as not sent. */
  function Truthy(v: Option<string>): (r: Option<string>)
    ensures r.Some? <==> v.Some? && v.value != ""
    ensures r.Some? ==> r == v
  {
    if v.Some? && v.value != "" then v else None
  }

  /** `parseInt(value, 10)` of a sent value. */
  function Number(v: Option<string>): Value {
    if v.None? then Missing
    else
      var n := ParseInt.ParseInt10(v.value);
      if n.Some? then Num(n.value) else NotANumber
  }

  /** `@IsOptional() @IsInt() @Min(1)` after the transform. */
  predicate PositiveOrAbsent(v: Value) {
    Absent(v) || (IsNumber(v) && Min(v, 1))
  }

  function Validate(q: Query): (r: Result<UserService.UserFilters>)
    ensures r.Ok? <==> PositiveOrAbsent(Number(q.page)) && PositiveOrAbsent(Number(q.limit))
    ensures r.Fail? ==> r.error == HttpException(BadRequest)
    ensures r.Ok? ==> r.value.username == Truthy(q.username) && r.value.nameRole == Truthy(q.nameRole)
    ensures r.Ok? ==> (r.value.page.Some? <==> q.page.Some?) && (r.value.limit.Some? <==> q.limit.Some?)
    ensures r.Ok? ==> (r.value.page.Some? ==> r.value.page.value >= 1) && (r.value.limit.Some? ==> r.value.limit.value >= 1)
  {
    var page, limit := Number(q.page), Number(q.limit);
    if !PositiveOrAbsent(page) || !PositiveOrAbsent(limit) then Fail(HttpException(BadRequest))
    else
      Ok(UserService.UserFilters(Truthy(q.username), Truthy(q.nameRole),
                                 if page.Num? then Some(page.n) else None,
                                 if limit.Num? then Some(limit.n) else None))
  }

  /** A page whose text reads as a positive number is accepted as that number. */
  lemma PageReadsAsNumber(page: string, n: int)
    requires n >= 1 && ParseInt.ParseInt10(page) == Some(n)
    ensures Validate(Query(None, None, Some(page), None)) == Ok(UserService.UserFilters(None, None, Some(n), None))
  {
    assert Number(Some(page)) == Num(n);
  }

  /** A number followed by other text is read as its number: `page=2x` asks for page 2. */
  lemma PageReadsLeadingNumber(n: nat, rest: string)
    requires n >= 1
    requires rest == [] || !ParseInt.IsDigit(rest[0])
    ensures Validate(Query(None, None, Some(ParseInt.ToDecimal(n) + rest), None))
         == Ok(UserService.UserFilters(None, None, Some(n), None))
  {
    var s := ParseInt.ToDecimal(n) + rest;
    ParseInt.ParseIntReadsNumber(s, "", false, n, rest);
    PageReadsAsNumber(s, n);
  }

  /** `page=` (sent but empty) is `NaN` and refused, while leaving `page` out means page 1. */
  lemma EmptyPageRefused(q: Query)
    requires q.page == Some("")
    ensures Validate(q) == Fail(HttpException(BadRequest))
    ensures Validate(q.(page := None)).Ok? ==> Store.PageOrDefault(Validate(q.(page := None)).value.page) == 1
  {
    ParseInt.NoDigitsIsNaN("", "");
    assert "" + "" == "";
  }

  /** An accepted query meets what the listing needs: its filters are absent or non-empty,
      and its paging arguments are at least 1. */
  lemma AcceptedQueryIsListable(q: Query)
    requires Validate(q).Ok?
    ensures var f := Validate(q).value;
      && (f.username.Some? ==> f.username.value != "") && (f.nameRole.Some? ==> f.nameRole.value != "")
      && Store.PagingOf(f.page, f.limit).take >= 1
      && Store.PagingOf(f.page, f.limit).skip == (Store.PageOrDefault(f.page) - 1) * Store.LimitOrDefault(f.limit)
  {
  }
}

=== FILE: http.dfy ===
/** Status codes, the exceptions a handler can throw, and the failure-compatible result
    type every service operation of the backend returns. */
module Http {

  const BadRequest: int := 400
  const Unauthorized: int := 401
  const NotFound: int := 404
  const InternalServerError: int := 500

  /** What an operation can throw: a Nest `HttpException` (which includes
      `NotFoundException`) carrying a status, or any other error (a plain `Error`, a
      TypeORM `QueryFailedError` or `EntityNotFoundError`). Message text is not modelled. */
  datatype Exception = HttpException(status: int) | PlainError

  datatype Option<+T> = None | Some(value: T)

  datatype Result<+T> = Ok(value: T) | Fail(error: Exception) {

    predicate IsFailure() {
      Fail?
    }

    function PropagateFailure<U>(): Result<U>
      requires Fail?
    {
      Fail(error)
    }

    function Extract(): T
      requires Ok?
    {
      value
    }
  }

  /** True iff `r` failed with an `HttpException` of the given status. */
  predicate FailedWith<T>(r: Result<T>, status: int) {
    r.Fail? && r.error == HttpException(status)
  }

  /** A write that went through: the store after the save and what the call returns. */
  datatype Saved<+S, +V> = Saved(store: S, out: V)

  /** A handler whose `catch` throws a fresh `HttpException` with a fixed status: every
      failure of the service, whatever it was, leaves with that status. */
  function Rethrow<T>(r: Result<T>, status: int): (out: Result<T>)
    ensures r.Ok? ==> out == r
    ensures r.Fail? ==> out == Fail(HttpException(status))
  {
    if r.Ok? then r else Fail(HttpException(status))
  }

  /** A handler whose `catch` rethrows an `HttpException` as it is and turns any other error
      into a 500. */
  function PassHttp<T>(r: Result<T>): (out: Result<T>)
    ensures r.Ok? || r.error.HttpException? ==> out == r
    ensures r.Fail? && r.error == PlainError ==> out == Fail(HttpException(InternalServerError))
    ensures out.Fail? ==> out.error.HttpException?
  {
    if r.Fail? && r.error == PlainError then Fail(HttpException(InternalServerError)) else r
  }
}

=== FILE: parse_int.dfy ===
/** `parseInt(value, 10)` of ECMA-262 (section 19.2.5), on the query strings the filter DTO
    converts: leading white space is skipped, one sign is read, then the longest run of
    decimal digits; no digit at all gives `NaN`. */
module ParseInt {
  import opened Http

  /** StrWhiteSpaceChar: the WhiteSpace and LineTerminator code points. Below U+0080 these
      are tab, line feed, vertical tab, form feed, carriage return and space. */
  predicate IsWhiteSpace(c: char) {
    var n := c as int;
    if n < 0x80 then (0x09 <= n <= 0x0D) || n == 0x20 else IsWideWhiteSpace(n)
  }

  /** The white space above U+007F: no-break space, the other space separators, the line
      and paragraph separators and the byte-order mark. */
  predicate IsWideWhiteSpace(n: int) {
    || n == 0xA0 || n == 0x1680 || (0x2000 <= n <= 0x200A) || n == 0x2028 || n == 0x2029
    || n == 0x202F || n == 0x205F || n == 0x3000 || n == 0xFEFF
  }

  predicate IsDigit(c: char) {
    '0' <= c <= '9'
  }

  predicate AllDigits(s: string) {
    forall i :: 0 <= i < |s| ==> IsDigit(s[i])
  }

  /** The first position at or after `i` that is not white space. */
  function SkipWhiteSpace(s: string, i: nat): (j: nat)
    requires i <= |s|
    ensures i <= j <= |s|
    ensures j < |s| ==> !IsWhiteSpace(s[j])
    decreases |s| - i
  {
    if i < |s| && IsWhiteSpace(s[i]) then SkipWhiteSpace(s, i + 1) else i
  }

  /** Everything skipped is white space. */
  lemma {:induction false} SkippedIsWhiteSpace(s: string, i: nat)
    requires i <= |s|
    ensures forall k :: i <= k < SkipWhiteSpace(s, i) ==> IsWhiteSpace(s[k])
    decreases |s| - i
  {
    if i < |s| && IsWhiteSpace(s[i]) {
      SkippedIsWhiteSpace(s, i + 1);
    }
  }

  /** The end of the run of digits that starts at `i`. */
  function DigitsEnd(s: string, i: nat): (j: nat)
    requires i <= |s|
    ensures i <= j <= |s|
    ensures j < |s| ==> !IsDigit(s[j])
    decreases |s| - i
  {
    if i < |s| && IsDigit(s[i]) then DigitsEnd(s, i + 1) else i
  }

  /** The run is all digits. */
  lemma {:induction false} DigitsEndOnlyDigits(s: string, i: nat)
    requires i <= |s|
    ensures AllDigits(s[i..DigitsEnd(s, i)])
    decreases |s| - i
  {
    if i < |s| && IsDigit(s[i]) {
      DigitsEndOnlyDigits(s, i + 1);
      assert s[i..DigitsEnd(s, i)] == [s[i]] + s[i + 1..DigitsEnd(s, i + 1)];
    }
  }

  /** The number a run of decimal digits denotes. */
  function DecimalValue(digits: string): nat
    requires AllDigits(digits)
  {
    if |digits| == 0 then 0
    else DecimalValue(digits[..|digits| - 1]) * 10 + (digits[|digits| - 1] as int - '0' as int)
  }

  /** Skip the white space, read one optional sign, then the longest run of digits; `None`
      (`NaN`) when that run is empty. */
  function ParseInt10(s: string): Option<int> {
    var i := SkipWhiteSpace(s, 0);
    var signed := i < |s| && (s[i] == '-' || s[i] == '+');
    var start := if signed then i + 1 else i;
    var end := DigitsEnd(s, start);
    if end == start then None
    else
      DigitsEndOnlyDigits(s, start);
      var m: int := DecimalValue(s[start..end]);
      Some(if signed && s[i] == '-' then -m else m)
  }

  /** The shortest decimal text of `n`, as `String(n)` writes it. */
  function ToDecimal(n: nat): (s: string)
    ensures |s| >= 1 && AllDigits(s)
    ensures s[0] == '0' ==> n == 0
  {
    if n < 10 then [('0' as int + n) as char]
    else ToDecimal(n / 10) + [('0' as int + n % 10) as char]
  }

  /** Reading back the decimal text of a number gives the number. */
  lemma {:induction false} DecimalRoundTrip(n: nat)
    ensures DecimalValue(ToDecimal(n)) == n
  {
    var s := ToDecimal(n);
    if n < 10 {
      assert s[..0] == [];
    } else {
      assert s[..|s| - 1] == ToDecimal(n / 10);
      DecimalRoundTrip(n / 10);
    }
  }

  /** White space from `i` up to a non-blank position `j` is skipped exactly. */
  lemma {:induction false} SkipStopsAt(s: string, i: nat, j: nat)
    requires i <= j <= |s|
    requires forall k :: i <= k < j ==> IsWhiteSpace(s[k])
    requires j < |s| ==> !IsWhiteSpace(s[j])
    ensures SkipWhiteSpace(s, i) == j
    decreases j - i
  {
    if i < j {
      SkipStopsAt(s, i + 1, j);
    }
  }

  /** Digits from `i` up to a non-digit at `j` are read exactly. */
  lemma {:induction false} DigitsStopAt(s: string, i: nat, j: nat)
    requires i <= j <= |s|
    requires forall k :: i <= k < j ==> IsDigit(s[k])
    requires j < |s| ==> !IsDigit(s[j])
    ensures DigitsEnd(s, i) == j
    decreases j - i
  {
    if i < j {
      DigitsStopAt(s, i + 1, j);
    }
  }

  /** White space up to `i`, an optional minus at `i`, then digits from `start` up to a
      non-digit at `end`: the digits are the number read, negated after a minus. */
  lemma ReadsDigitsAt(s: string, i: nat, start: nat, end: nat)
    requires i <= start <= i + 1 && start < end <= |s|
    requires forall k :: 0 <= k < i ==> IsWhiteSpace(s[k])
    requires start == i + 1 ==> s[i] == '-'
    requires forall k :: start <= k < end ==> IsDigit(s[k])
    requires end < |s| ==> !IsDigit(s[end])
    ensures AllDigits(s[start..end])
    ensures var m: int := DecimalValue(s[start..end]); ParseInt10(s) == Some(if start == i then m else -m)
  {
    SkipStopsAt(s, 0, i);
    DigitsStopAt(s, start, end);
  }

  /** `parseInt` reads a number written after white space and an optional minus sign, and
      ignores whatever non-digit text follows it. */
  lemma ParseIntReadsNumber(s: string, ws: string, negative: bool, n: nat, rest: string)
    requires forall k :: 0 <= k < |ws| ==> IsWhiteSpace(ws[k])
    requires rest == [] || !IsDigit(rest[0])
    requires s == ws + (if negative then "-" else "") + ToDecimal(n) + rest
    ensures ParseInt10(s) == Some(if negative then -(n as int) else n as int)
  {
    var d := ToDecimal(n);
    var i := |ws|;
    var start := if negative then i + 1 else i;
    var end := start + |d|;
    assert |s| == end + |rest|;
    forall k | 0 <= k < i
      ensures IsWhiteSpace(s[k])
    {
      assert s[k] == ws[k];
    }
    forall k | start <= k < end
      ensures s[k] == d[k - start]
    {
    }
    assert s[start..end] == d;
    assert end < |s| ==> s[end] == rest[0];
    ReadsDigitsAt(s, i, start, end);
    DecimalRoundTrip(n);
  }

  /** Text with no digit after the white space and the sign is `NaN`: the empty query
      value among them. */
  lemma NoDigitsIsNaN(ws: string, t: string)
    requires forall k :: 0 <= k < |ws| ==> IsWhiteSpace(ws[k])
    requires t == [] || !IsWhiteSpace(t[0])
    requires t == [] || (!IsDigit(t[0]) && ((t[0] == '-' || t[0] == '+') ==> |t| == 1 || !IsDigit(t[1])))
    ensures ParseInt10(ws + t).None?
  {
    var s := ws + t;
    SkipStopsAt(s, 0, |ws|);
  }
}

=== FILE: patients.dfy ===
/** `PatientsService` (src/patients/patients.service.ts): patients, unique by identity card,
    and their soft deletion through `status`. */
module Patients {
  import opened Http
  import Store

  /** A stored patient (src/patients/entities/patient.entity.ts); every column but `idCard`
      is nullable. Dates are day or instant numbers and the disability percentage an integer. */
  datatype Patient = Patient(
    idCard: int,
    fullName: Option<string>,
    gender: Option<string>,
    birthDate: Option<int>,
    age: Option<int>,
    beneficiaryType: Option<string>,
    disabilityType: Option<string>,
    disabilityPercentage: Option<int>,
    status: Option<bool>,
    createdAt: int
  )

  type Patients = map<int, Patient>

  /** `idCard` is declared `unique: true`. */
  predicate UniqueIdCards(patients: Patients) {
    forall a, b :: a in patients && b in patients && a != b ==> patients[a].idCard != patients[b].idCard
  }

  /** Another patient than `id` already holds `idCard`. */
  predicate CardTaken(patients: Patients, id: int, idCard: int) {
    exists k :: k in patients && k != id && patients[k].idCard == idCard
  }

  /** A validated `CreatePatientDto`; every field but `idCard` may be left out. */
  datatype NewPatient = NewPatient(
    idCard: int,
    fullName: Option<string>,
    gender: Option<string>,
    birthDate: Option<int>,
    age: Option<int>,
    beneficiaryType: Option<string>,
    disabilityType: Option<string>,
    disabilityPercentage: Option<int>,
    status: Option<bool>
  )

  function Row(dto: NewPatient, now: int): Patient {
    Patient(dto.idCard, dto.fullName, dto.gender, dto.birthDate, dto.age, dto.beneficiaryType,
            dto.disabilityType, dto.disabilityPercentage, dto.status, now)
  }

  /** `save(create(dto))`; a taken identity card violates the unique index. */
  function Create(patients: Patients, id: int, dto: NewPatient, now: int): (r: Result<Saved<Patients, Store.Entry<Patient>>>)
    requires id !in patients
    ensures r.Fail? <==> CardTaken(patients, id, dto.idCard)
    ensures r.Fail? ==> r.error == PlainError
    ensures r.Ok? ==> r.value.store.Keys == patients.Keys + {id}
                      && (forall k :: k in patients ==> r.value.store[k] == patients[k])
                      && r.value.out == Store.Entry(id, r.value.store[id])
    ensures r.Ok? ==> var p := r.value.store[id];
      && p.idCard == dto.idCard && p.fullName == dto.fullName && p.gender == dto.gender
      && p.birthDate == dto.birthDate && p.age == dto.age && p.beneficiaryType == dto.beneficiaryType
      && p.disabilityType == dto.disabilityType && p.disabilityPercentage == dto.disabilityPercentage
      && p.status == dto.status && p.createdAt == now
    ensures r.Ok? && UniqueIdCards(patients) ==> UniqueIdCards(r.value.store)
  {
    if CardTaken(patients, id, dto.idCard) then Fail(PlainError)
    else Ok(Saved(patients[id := Row(dto, now)], Store.Entry(id, Row(dto, now))))
  }

  function FindOne(patients: Patients, id: int): (r: Result<Store.Entry<Patient>>)
    ensures r.Ok? <==> id in patients
    ensures r.Ok? ==> Store.Holds(patients, r.value) && r.value.id == id
    ensures r.Fail? ==> r.error == HttpException(NotFound)
  {
    if id in patients then Ok(Store.Entry(id, patients[id])) else Fail(HttpException(NotFound))
  }

  /** A validated `UpdatePatientDto`: every field optional. */
  datatype PatientPatch = PatientPatch(
    idCard: Option<int>,
    fullName: Option<string>,
    gender: Option<string>,
    birthDate: Option<int>,
    age: Option<int>,
    beneficiaryType: Option<string>,
    disabilityType: Option<string>,
    disabilityPercentage: Option<int>,
    status: Option<bool>
  )

  /** `Object.assign(patient, dto)`. */
  function Merge(p: Patient, q: PatientPatch): Patient {
    p.(idCard := Store.Pick(q.idCard, p.idCard),
       fullName := Store.PickOptional(q.fullName, p.fullName),
       gender := Store.PickOptional(q.gender, p.gender),
       birthDate := Store.PickOptional(q.birthDate, p.birthDate),
       age := Store.PickOptional(q.age, p.age),
       beneficiaryType := Store.PickOptional(q.beneficiaryType, p.beneficiaryType),
       disabilityType := Store.PickOptional(q.disabilityType, p.disabilityType),
       disabilityPercentage := Store.PickOptional(q.disabilityPercentage, p.disabilityPercentage),
       status := Store.PickOptional(q.status, p.status))
  }

  /** Every column of `after` is the patch's value where one was given and `before`'s
      elsewhere; the creation time never changes. */
  predicate MergedFrom(before: Patient, q: PatientPatch, after: Patient) {
    && Store.Assigned(q.idCard, before.idCard, after.idCard)
    && Store.AssignedOptional(q.fullName, before.fullName, after.fullName)
    && Store.AssignedOptional(q.gender, before.gender, after.gender)
    && Store.AssignedOptional(q.birthDate, before.birthDate, after.birthDate)
    && Store.AssignedOptional(q.age, before.age, after.age)
    && Store.AssignedOptional(q.beneficiaryType, before.beneficiaryType, after.beneficiaryType)
    && Store.AssignedOptional(q.disabilityType, before.disabilityType, after.disabilityType)
    && Store.AssignedOptional(q.disabilityPercentage, before.disabilityPercentage, after.disabilityPercentage)
    && Store.AssignedOptional(q.status, before.status, after.status)
    && after.createdAt == before.createdAt
  }

  function Update(patients: Patients, id: int, patch: PatientPatch): (r: Result<Saved<Patients, Store.Entry<Patient>>>)
    ensures id !in patients <==> r == Fail(HttpException(NotFound))
    ensures r == Fail(PlainError) <==> id in patients && CardTaken(patients, id, Merge(patients[id], patch).idCard)
    ensures r.Ok? <==> id in patients && !CardTaken(patients, id, Merge(patients[id], patch).idCard)
    ensures r.Ok? ==> r.value.store == patients[id := r.value.out.record] && r.value.out.id == id
    ensures r.Ok? ==> MergedFrom(patients[id], patch, r.value.out.record)
    ensures r.Ok? && UniqueIdCards(patients) ==> UniqueIdCards(r.value.store)
  {
    var found := FindOne(patients, id);
    if found.Fail? then Fail(found.error)
    else
      var p := Merge(found.value.record, patch);
      if CardTaken(patients, id, p.idCard) then Fail(PlainError)
      else Ok(Saved(patients[id := p], Store.Entry(id, p)))
  }

  /** Sets `status` to false and keeps every other column. */
  function Disable(patients: Patients, id: int): (r: Result<Saved<Patients, Store.Entry<Patient>>>)
    ensures r.Ok? <==> id in patients
    ensures r.Fail? ==> r.error == HttpException(NotFound)
    ensures r.Ok? ==> r.value.store == patients[id := r.value.out.record] && r.value.out.id == id
    ensures r.Ok? ==> r.value.out.record.status == Some(false)
                      && r.value.out.record == patients[id].(status := r.value.out.record.status)
    ensures r.Ok? && UniqueIdCards(patients) ==> UniqueIdCards(r.value.store)
  {
    var found := FindOne(patients, id);
    if found.Fail? then Fail(found.error)
    else
      var p := found.value.record.(status := Some(false));
      Ok(Saved(patients[id := p], Store.Entry(id, p)))
  }

  /** Disabling twice is disabling once. */
  lemma DisableIsIdempotent(patients: Patients, id: int)
    requires id in patients
    ensures Disable(Disable(patients, id).value.store, id) == Disable(patients, id)
  {
    var once := Disable(patients, id).value.store;
    assert once[id := once[id]] == once;
  }

  /** Disabling is the update that supplies only `status := false`, and it never meets the
      unique index, since the identity card stays. */
  lemma DisableIsDeactivatingUpdate(patients: Patients, id: int)
    requires UniqueIdCards(patients)
    ensures Disable(patients, id)
         == Update(patients, id, PatientPatch(None, None, None, None, None, None, None, None, Some(false)))
  {
  }
}

=== FILE: reset_password_dto.dfy ===
/** `ResetPasswordDto` (src/auth/dto/resetPassword.dto.ts): the body of
    `PATCH /auth/reset-password` as the validation pipe checks it. */
module ResetPasswordDto {
  import opened Http
  import opened Validation
  import Uuid

  datatype Body = Body(resetPasswordToken: Value, password: Value)

  /** The checked fields. */
  datatype ResetPassword = ResetPassword(resetPasswordToken: string, password: string)

  /** Any failed decorator makes the pipe answer 400. */
  function Validate(b: Body): (r: Result<ResetPassword>)
    ensures r.Ok? <==> && b.resetPasswordToken.Str? && Uuid.IsUuidV4(b.resetPasswordToken.text)
                       && b.password.Str? && 6 <= |b.password.text| <= 20
    ensures r.Fail? ==> r.error == HttpException(BadRequest)
    ensures r.Ok? ==> Str(r.value.resetPasswordToken) == b.resetPasswordToken && Str(r.value.password) == b.password
  {
    var token, password := b.resetPasswordToken, b.password;
    var tokenOk := token.Str? && Uuid.IsUuidV4(token.text) && IsNotEmpty(token);
    var passwordOk := IsString(password) && IsNotEmpty(password) && Length(password, 6, 20);
    if tokenOk && passwordOk then Ok(ResetPassword(token.text, password.text))
    else Fail(HttpException(BadRequest))
  }

  /** A freshly generated version-4 token with a password of 6 to 20 characters is accepted. */
  lemma GeneratedTokenAccepted(bytes: seq<Uuid.Byte>, password: string)
    requires |bytes| == 16
    requires 6 <= |password| <= 20
    ensures Validate(Body(Str(Uuid.Format(Uuid.WithVersion4(bytes))), Str(password))).Ok?
  {
    Uuid.FormattedVersion4Accepted(bytes);
  }
}

=== FILE: role_controller.dfy ===
/** `RoleController` (src/role/role.controller.ts): the handlers rethrow an `HttpException`
    as it is and turn any other error into a 500. */
module RoleController {
  import opened Http
  import Crypto
  import Store
  import RoleService
  import UserService
  import UserController

  /** `GET /role/:id` returns the service's promise without awaiting it, so its rejection
      skips the handler's `catch` and reaches the client as the service's own 404. */
  function FindRoleById(roles: RoleService.Roles, id: int): (r: Result<RoleService.RoleRow>)
    ensures r.Ok? <==> id in roles
    ensures r.Ok? ==> r.value.id == id && r.value.nameRole == roles[id].nameRole
    ensures r.Ok? ==> r.value.createdAt == roles[id].createdAt
    ensures r.Fail? ==> r.error == HttpException(NotFound)
    ensures r == RoleService.FindByOneById(roles, id)
  {
    RoleService.FindByOneById(roles, id)
  }

  /** `GET /role`: the service's listing; `ids` is the ordered list of every selected role. */
  method FindAllFiltered(roles: RoleService.Roles, f: RoleService.RoleFilters)
    returns (r: Result<RoleService.RoleListing>, ghost ids: seq<int>)
    requires f.page.Some? ==> f.page.value >= 1
    requires f.limit.Some? ==> f.limit.value >= 1
    ensures r.Ok?
    ensures r.value.totalCount == r.value.rolePaginated.totalCount
    ensures r.value.rolePaginated.rolePerPage == |r.value.rolePaginated.data|
    ensures forall k :: multiset(ids)[k] == if k in roles && RoleService.Selected(f, roles[k]) then 1 else 0
    ensures r.value.totalCount == |ids|
    ensures |r.value.rolePaginated.data| ==
      Store.WindowSize(|ids|, Store.PagingOf(f.page, f.limit).skip, Store.PagingOf(f.page, f.limit).take)
    ensures forall i :: 0 <= i < |r.value.rolePaginated.data| ==>
      RoleService.InWindow(roles, ids, Store.PagingOf(f.page, f.limit).skip + i, r.value.rolePaginated.data[i])
    ensures var limit := Store.LimitOrDefault(f.limit);
      r.value.rolePaginated.totalPages * limit >= r.value.totalCount
      && (r.value.rolePaginated.totalPages == 0 || (r.value.rolePaginated.totalPages - 1) * limit < r.value.totalCount)
    ensures forall i, j :: 0 <= i < j < |r.value.rolePaginated.data| ==>
      r.value.rolePaginated.data[i].createdAt >= r.value.rolePaginated.data[j].createdAt
  {
    var listing;
    listing, ids := RoleService.FindAllFilter(roles, f);
    r := PassHttp(Ok(listing));
  }

  /** `POST /role`: a taken name violates the unique index, a plain error, so it reads as 500. */
  function CreateRole(roles: RoleService.Roles, id: int, name: string, now: int): (r: Result<Saved<RoleService.Roles, RoleService.RoleRow>>)
    requires id !in roles
    ensures r.Fail? <==> exists k :: k in roles && roles[k].nameRole == name
    ensures r.Fail? ==> r.error == HttpException(InternalServerError)
    ensures r.Ok? ==> r.value.store == roles[id := RoleService.Role(name, now)]
    ensures RoleService.UniqueNames(roles) && r.Ok? ==> RoleService.UniqueNames(r.value.store)
  {
    PassHttp(RoleService.CreateRole(roles, id, name, now))
  }

  /** `PATCH /role/:id`: the service's 404 and 400 pass through unchanged. */
  function UpdateRole(roles: RoleService.Roles, id: int, patch: RoleService.RolePatch)
    : (r: Result<Saved<RoleService.Roles, RoleService.UpdatedRole>>)
    ensures id !in roles ==> r == Fail(HttpException(NotFound))
    ensures id in roles && patch.nameRole.None? ==> r == Fail(HttpException(BadRequest))
    ensures r.Ok? <==> id in roles && patch.nameRole.Some?
    ensures r.Ok? ==> r.value.store == roles
  {
    PassHttp(RoleService.UpdateRole(roles, id, patch))
  }

  /** `DELETE /role/:id`: the service's 404 passes through. */
  function DeleteRole(roles: RoleService.Roles, id: int): (r: Result<RoleService.Roles>)
    ensures r.Ok? <==> id in roles
    ensures r.Fail? ==> r.error == HttpException(NotFound)
    ensures r.Ok? ==> r.value.Keys == roles.Keys - {id}
    ensures r.Ok? ==> forall k :: k in r.value ==> r.value[k] == roles[k]
  {
    PassHttp(RoleService.DeleteRole(roles, id))
  }

  /** The same client mistake is answered differently by the two controllers: an unknown
      id in an update is 404 for a role and 500 for a user. */
  lemma UnknownIdAnsweredDifferently(roles: RoleService.Roles, users: UserService.Users, id: int,
                                     rp: RoleService.RolePatch, up: UserService.UserPatch, crypto: Crypto.Primitives)
    requires id !in roles && id !in users
    ensures FailedWith(UpdateRole(roles, id, rp), NotFound)
    ensures FailedWith(UserController.UpdateUser(users, id, up, crypto), InternalServerError)
  {
  }
}

=== FILE: role_service.dfy ===
/** `RoleService` (src/role/role.service.ts): lookups, the filtered and paged listing,
    and create / update / delete over the role repository. */
module RoleService {
  import opened Http
  import Store
  import Text

  /** A stored role; its key is the generated `id`. */
  datatype Role = Role(nameRole: string, createdAt: int)

  /** A role with its key, as `plainToInstance(GetRoleDto, role)` returns it without
      `excludeExtraneousValues`: every column is kept. */
  datatype RoleRow = RoleRow(id: int, nameRole: string, createdAt: int)

  type Roles = map<int, Role>

  function RowOf(e: Store.Entry<Role>): RoleRow {
    RoleRow(e.id, e.record.nameRole, e.record.createdAt)
  }

  /** `role.name_role` is declared `unique: true`. */
  predicate UniqueNames(roles: Roles) {
    forall a, b :: a in roles && b in roles && a != b ==> roles[a].nameRole != roles[b].nameRole
  }

  function FindByOneById(roles: Roles, id: int): (r: Result<RoleRow>)
    ensures r.Ok? <==> id in roles
    ensures r.Ok? ==> r.value.id == id && r.value.nameRole == roles[id].nameRole
                      && r.value.createdAt == roles[id].createdAt
    ensures r.Fail? ==> r.error == HttpException(NotFound)
  {
    if id in roles then Ok(RowOf(Store.Entry(id, roles[id]))) else Fail(HttpException(NotFound))
  }

  method FindByName(roles: Roles, name: string) returns (r: Result<RoleRow>)
    ensures r.Ok? ==> r.value.id in roles && r.value.nameRole == name
                      && r.value == RowOf(Store.Entry(r.value.id, roles[r.value.id]))
    ensures r.Fail? <==> forall k :: k in roles ==> roles[k].nameRole != name
    ensures r.Fail? ==> r.error == HttpException(NotFound)
    ensures UniqueNames(roles) && r.Ok? ==>
      forall k :: k in roles && roles[k].nameRole == name ==> k == r.value.id
  {
    var found := Store.FindOne(roles, (x: Role) => x.nameRole == name);
    if found.None? {
      return Fail(HttpException(NotFound));
    }
    return Ok(RowOf(found.value));
  }

  /** The query of `GET /role`; `page` and `limit` are at least 1 when given. */
  datatype RoleFilters = RoleFilters(nameRole: Option<string>, page: Option<int>, limit: Option<int>)

  datatype RolePaginated = RolePaginated(data: seq<RoleRow>, totalCount: nat, rolePerPage: nat, totalPages: nat)

  datatype RoleListing = RoleListing(rolePaginated: RolePaginated, totalCount: nat)

  /** The name filter applies only when it is a non-empty string (JavaScript truthiness). */
  predicate Selected(f: RoleFilters, role: Role) {
    f.nameRole.Some? && f.nameRole.value != "" ==> Text.ContainsIgnoringCase(role.nameRole, f.nameRole.value)
  }

  /** `row` is the role at position `n` of the ordered keys `ids`. */
  predicate InWindow(roles: Roles, ids: seq<int>, n: int, row: RoleRow) {
    0 <= n < |ids| && ids[n] in roles && row == RowOf(Store.Entry(ids[n], roles[ids[n]]))
  }

  /** The rows of a page as the listing returns them. */
  function Rows(page: seq<Store.Entry<Role>>): (rs: seq<RoleRow>)
    ensures |rs| == |page|
    ensures forall i :: 0 <= i < |rs| ==> rs[i] == RowOf(page[i]) && rs[i].createdAt == page[i].record.createdAt
  {
    seq(|page|, i requires 0 <= i < |page| => RowOf(page[i]))
  }

  method FindAllFilter(roles: Roles, f: RoleFilters) returns (r: RoleListing, ghost ids: seq<int>)
    requires f.page.Some? ==> f.page.value >= 1
    requires f.limit.Some? ==> f.limit.value >= 1
    ensures forall k :: multiset(ids)[k] == if k in roles && Selected(f, roles[k]) then 1 else 0
    ensures r.totalCount == r.rolePaginated.totalCount == |ids|
    ensures |r.rolePaginated.data| <= Store.PagingOf(f.page, f.limit).take
    ensures Store.PagingOf(f.page, f.limit).skip + Store.PagingOf(f.page, f.limit).take <= |ids| ==>
      |r.rolePaginated.data| == Store.PagingOf(f.page, f.limit).take
    ensures |r.rolePaginated.data| == Store.WindowSize(|ids|, Store.PagingOf(f.page, f.limit).skip, Store.PagingOf(f.page, f.limit).take)
    ensures forall i :: 0 <= i < |r.rolePaginated.data| ==> InWindow(roles, ids, Store.PagingOf(f.page, f.limit).skip + i, r.rolePaginated.data[i])
    ensures r.rolePaginated.rolePerPage == |r.rolePaginated.data|
    ensures var limit := Store.LimitOrDefault(f.limit);
      r.rolePaginated.totalPages * limit >= r.totalCount
      && (r.rolePaginated.totalPages == 0 || (r.rolePaginated.totalPages - 1) * limit < r.totalCount)
    ensures forall i, j :: 0 <= i < j < |r.rolePaginated.data| ==>
      r.rolePaginated.data[i].createdAt >= r.rolePaginated.data[j].createdAt
  {
    var stamp := (x: Role) => x.createdAt;
    var p := Store.PagingOf(f.page, f.limit);
    var all, page := Store.Page(roles, (x: Role) => Selected(f, x), stamp, p.skip, p.take);
    ids := all;
    var data := Rows(page);
    assert |data| == |page| == Store.WindowSize(|all|, p.skip, p.take);
    forall i | 0 <= i < |page|
      ensures InWindow(roles, ids, p.skip + i, data[i])
    {
      var e := page[i];
      assert e == Store.Entry(all[p.skip + i], roles[all[p.skip + i]]);
    }
    forall i, j | 0 <= i < j < |page|
      ensures data[i].createdAt >= data[j].createdAt
    {
      assert stamp(page[i].record) >= stamp(page[j].record);
    }
    var total := |all|;
    r := RoleListing(RolePaginated(data, total, |data|, Store.CeilDiv(total, p.take)), total);
  }

  function CreateRole(roles: Roles, id: int, name: string, now: int): (r: Result<Saved<Roles, RoleRow>>)
    requires id !in roles
    ensures r.Fail? <==> exists k :: k in roles && roles[k].nameRole == name
    ensures r.Fail? ==> r.error == PlainError
    ensures r.Ok? ==> r.value.store == roles[id := Role(name, now)]
    ensures r.Ok? ==> r.value.out == RoleRow(id, name, now)
    ensures UniqueNames(roles) && r.Ok? ==> UniqueNames(r.value.store)
  {
    if exists k :: k in roles && roles[k].nameRole == name then Fail(PlainError)
    else
      var role := Role(name, now);
      Ok(Saved(roles[id := role], RowOf(Store.Entry(id, role))))
  }

  /** The body of `PATCH /role/:id`; `Object.keys` of it is empty iff no field is given. */
  datatype RolePatch = RolePatch(nameRole: Option<string>)

  /** What `plainToInstance(GetRoleDto, role, { excludeExtraneousValues: true })` keeps: the
      DTO exposes `name_rol` and `updatedAt`, which the entity does not have, so only the
      key and the creation time survive. */
  datatype UpdatedRole = UpdatedRole(id: int, createdAt: int)

  function UpdateRole(roles: Roles, id: int, patch: RolePatch): (r: Result<Saved<Roles, UpdatedRole>>)
    ensures id !in roles ==> r == Fail(HttpException(NotFound))
    ensures id in roles && patch.nameRole.None? ==> r == Fail(HttpException(BadRequest))
    ensures r.Ok? <==> id in roles && patch.nameRole.Some?
    ensures r.Ok? ==> r.value.store == roles
    ensures r.Ok? ==> r.value.out == UpdatedRole(id, roles[id].createdAt)
  {
    if id !in roles then Fail(HttpException(NotFound))
    else if patch.nameRole.None? then Fail(HttpException(BadRequest))
    else Ok(Saved(roles, UpdatedRole(id, roles[id].createdAt)))
  }

  function DeleteRole(roles: Roles, id: int): (r: Result<Roles>)
    ensures r.Ok? <==> id in roles
    ensures r.Fail? ==> r.error == HttpException(NotFound)
    ensures r.Ok? ==> r.value.Keys == roles.Keys - {id}
    ensures r.Ok? ==> forall k :: k in r.value ==> r.value[k] == roles[k]
  {
    if id !in roles then Fail(HttpException(NotFound)) else Ok(roles - {id})
  }

  /** Removing a role keeps the names of the others distinct. */
  lemma DeleteKeepsUniqueNames(roles: Roles, id: int)
    requires UniqueNames(roles)
    requires id in roles
    ensures UniqueNames(DeleteRole(roles, id).value)
  {
  }
}

=== FILE: store.dfy ===
/** Generic operations on a keyed store `map<int, T>` standing for a TypeORM repository:
    `findOne({ where })` on a non-key column, and the ordered, paged listing built by
    `createQueryBuilder(...).orderBy(col, 'DESC').skip(s).take(t).getManyAndCount()`. */
module Store {
  import opened Http

  /** A record together with the generated primary key it is stored under. */
  datatype Entry<+T> = Entry(id: int, record: T)

  /** The store holds `e` under its key. */
  predicate Holds<T(==)>(m: map<int, T>, e: Entry<T>) {
    e.id in m && m[e.id] == e.record
  }

  /** `FindKey`, returning the record with its key. */
  method FindOne<T(==)>(m: map<int, T>, p: T -> bool) returns (r: Option<Entry<T>>)
    ensures r.Some? ==> Holds(m, r.value) && p(r.value.record)
    ensures r.None? <==> forall k :: k in m ==> !p(m[k])
  {
    var k := FindKey(m, p);
    if k.None? {
      return None;
    }
    return Some(Entry(k.value, m[k.value]));
  }

  /** The key of SOME record satisfying `p`, or `None` when no record does. Like
      `findOne`, it promises nothing about which one when several match. */
  method FindKey<T>(m: map<int, T>, p: T -> bool) returns (r: Option<int>)
    ensures r.Some? ==> r.value in m && p(m[r.value])
    ensures r.None? <==> forall k :: k in m ==> !p(m[k])
  {
    var todo := m.Keys;
    while exists k :: k in todo
      invariant todo <= m.Keys
      invariant forall k :: k in m && k !in todo ==> !p(m[k])
      decreases todo
    {
      var k :| k in todo;
      if p(m[k]) {
        return Some(k);
      }
      todo := todo - {k};
    }
    return None;
  }

  /** `ids` is ordered by `rank`, largest first (SQL `ORDER BY rank DESC`). */
  predicate Descending(ids: seq<int>, rank: int -> int) {
    forall i, j :: 0 <= i < j < |ids| ==> rank(ids[i]) >= rank(ids[j])
  }

  /** Puts `k` into a descending sequence in front of the first key it does not rank below. */
  function Insert(ids: seq<int>, k: int, rank: int -> int): (r: seq<int>)
    requires Descending(ids, rank)
    ensures Descending(r, rank)
    ensures multiset(r) == multiset(ids) + multiset{k}
    decreases |ids|
  {
    if |ids| == 0 then [k]
    else if rank(k) >= rank(ids[0]) then
      assert forall x :: x in ids ==> rank(ids[0]) >= rank(x);
      [k] + ids
    else
      var tail := Insert(ids[1..], k, rank);
      assert ids == [ids[0]] + ids[1..];
      HeadDominates(ids[0], ids[1..], k, tail, rank);
      [ids[0]] + tail
  }

  /** A head that outranks the inserted key still leads after the insertion into its tail. */
  lemma HeadDominates(h: int, rest: seq<int>, k: int, tail: seq<int>, rank: int -> int)
    requires Descending([h] + rest, rank)
    requires rank(h) > rank(k)
    requires multiset(tail) == multiset(rest) + multiset{k}
    requires Descending(tail, rank)
    ensures Descending([h] + tail, rank)
  {
    var r := [h] + tail;
    forall i, j | 0 <= i < j < |r|
      ensures rank(r[i]) >= rank(r[j])
    {
      if i == 0 {
        var x := r[j];
        assert x in multiset(tail);
        if x != k {
          assert multiset(rest)[x] == multiset(tail)[x] > 0;
          var n :| 0 <= n < |rest| && rest[n] == x;
          var s := [h] + rest;
          assert s[0] == h && s[n + 1] == x;
          assert rank(s[0]) >= rank(s[n + 1]);
        }
      } else {
        assert r[i] == tail[i - 1] && r[j] == tail[j - 1];
      }
    }
  }

  /** Every key of `m` whose record satisfies `keep`, each exactly once, largest `rank` first. */
  method Listing<T>(m: map<int, T>, keep: T -> bool, rank: int -> int) returns (ids: seq<int>)
    ensures forall k :: multiset(ids)[k] == if k in m && keep(m[k]) then 1 else 0
    ensures Descending(ids, rank)
  {
    ids := [];
    var todo := m.Keys;
    while exists k :: k in todo
      invariant todo <= m.Keys
      invariant forall k :: multiset(ids)[k] == if k in m && k !in todo && keep(m[k]) then 1 else 0
      invariant Descending(ids, rank)
      decreases todo
    {
      var k :| k in todo;
      if keep(m[k]) {
        ids := Insert(ids, k, rank);
      }
      todo := todo - {k};
    }
  }

  /** The matching keys in order and the `skip`/`take` window of them, as
      `getManyAndCount()` returns it: `ids` is the whole ordered result, of which
      only `|ids|` is reported, and `page` holds the selected records. */
  method Page<T>(m: map<int, T>, keep: T -> bool, stamp: T -> int, skip: nat, take: nat)
    returns (ids: seq<int>, page: seq<Entry<T>>)
    ensures forall k :: multiset(ids)[k] == if k in m && keep(m[k]) then 1 else 0
    ensures |page| <= take
    ensures skip + take <= |ids| ==> |page| == take
    ensures |page| == WindowSize(|ids|, skip, take)
    ensures forall i :: 0 <= i < |page| ==>
      skip + i < |ids| && ids[skip + i] in m && page[i] == Entry(ids[skip + i], m[ids[skip + i]])
    ensures forall i, j :: 0 <= i < j < |page| ==> stamp(page[i].record) >= stamp(page[j].record)
  {
    var rank := k => if k in m then stamp(m[k]) else 0;
    ids := Listing(m, keep, rank);
    ListedAreKept(m, keep, ids);
    forall i, j | 0 <= i < j < |ids|
      ensures stamp(m[ids[i]]) >= stamp(m[ids[j]])
    {
      assert rank(ids[i]) >= rank(ids[j]);
    }
    page := Window(Entries(m, ids), skip, take);
    WindowOrdered(m, stamp, ids, skip, take);
  }

  /** A window of records listed by descending `stamp` is itself in that order. */
  lemma WindowOrdered<T>(m: map<int, T>, stamp: T -> int, ids: seq<int>, skip: nat, take: nat)
    requires forall i :: 0 <= i < |ids| ==> ids[i] in m
    requires forall i, j :: 0 <= i < j < |ids| ==> stamp(m[ids[i]]) >= stamp(m[ids[j]])
    ensures var page := Window(Entries(m, ids), skip, take);
      forall i, j :: 0 <= i < j < |page| ==> stamp(page[i].record) >= stamp(page[j].record)
  {
    var entries := Entries(m, ids);
    var page := Window(entries, skip, take);
    forall i, j | 0 <= i < j < |page|
      ensures stamp(page[i].record) >= stamp(page[j].record)
    {
      assert page[i] == entries[skip + i] && page[j] == entries[skip + j];
    }
  }

  /** Every key a listing counts is a key of the store whose record is kept. */
  lemma ListedAreKept<T>(m: map<int, T>, keep: T -> bool, ids: seq<int>)
    requires forall k :: multiset(ids)[k] == if k in m && keep(m[k]) then 1 else 0
    ensures forall i :: 0 <= i < |ids| ==> ids[i] in m && keep(m[ids[i]])
  {
    forall i | 0 <= i < |ids|
      ensures ids[i] in m && keep(m[ids[i]])
    {
      var k := ids[i];
      assert k in multiset(ids);
      assert multiset(ids)[k] == if k in m && keep(m[k]) then 1 else 0;
    }
  }

  /** The stored records of `ids`, in the same order. */
  function Entries<T>(m: map<int, T>, ids: seq<int>): (es: seq<Entry<T>>)
    requires forall i :: 0 <= i < |ids| ==> ids[i] in m
    ensures |es| == |ids|
    ensures forall i :: 0 <= i < |es| ==> es[i] == Entry(ids[i], m[ids[i]])
  {
    seq(|ids|, i requires 0 <= i < |ids| => Entry(ids[i], m[ids[i]]))
  }

  /** `Math.ceil(count / limit)` on integer counts. */
  function CeilDiv(count: nat, limit: int): (pages: nat)
    requires limit >= 1
    ensures pages * limit >= count
    ensures pages == 0 || (pages - 1) * limit < count
  {
    (count + limit - 1) / limit
  }

  /** How many of `n` rows remain after skipping `skip`, at most `take` of them. */
  function WindowSize(n: nat, skip: nat, take: nat): nat {
    if skip >= n then 0 else if take <= n - skip then take else n - skip
  }

  /** The rows `skip(skip).take(take)` keeps of an ordered result: every remaining row up
      to `take` of them, so only the last page can be short. */
  function Window<T>(rows: seq<T>, skip: nat, take: nat): (w: seq<T>)
    ensures |w| <= take
    ensures skip + take <= |rows| ==> |w| == take
    ensures |w| == WindowSize(|rows|, skip, take)
    ensures forall i :: 0 <= i < |w| ==> skip + i < |rows| && w[i] == rows[skip + i]
  {
    if skip >= |rows| then []
    else if skip + take <= |rows| then rows[skip..skip + take]
    else rows[skip..]
  }

  /** The page the caller asked for, defaulting to the first. */
  function PageOrDefault(page: Option<int>): int {
    if page.Some? then page.value else 1
  }

  /** The page size the caller asked for, defaulting to ten. */
  function LimitOrDefault(limit: Option<int>): int {
    if limit.Some? then limit.value else 10
  }

  /** The paging arguments the services read from their filter DTO:
      `page = 1` and `limit = 10` by default, `skip = (page - 1) * limit` and `take = limit`. */
  datatype Paging = Paging(skip: nat, take: nat)

  function PagingOf(page: Option<int>, limit: Option<int>): (p: Paging)
    requires page.Some? ==> page.value >= 1
    requires limit.Some? ==> limit.value >= 1
    ensures p.take >= 1
    ensures page.None? ==> p.skip == 0
    ensures limit.None? ==> p.take == 10
    ensures p.take == LimitOrDefault(limit)
    ensures p.skip == (PageOrDefault(page) - 1) * p.take
  {
    var pg := PageOrDefault(page);
    var lim := LimitOrDefault(limit);
    assert 0 <= (pg - 1) * lim;
    Paging((pg - 1) * lim, lim)
  }

  lemma CeilDivIsLeast(count: nat, limit: int, n: int)
    requires limit >= 1
    requires n >= 0 && n * limit >= count
    ensures CeilDiv(count, limit) <= n
  {
  }
  /** `Object.assign` on one column: a supplied value replaces the current one. */
  function Pick<T>(given: Option<T>, current: T): T {
    if given.Some? then given.value else current
  }

  /** `Pick` on a nullable column. */
  function PickOptional<T>(given: Option<T>, current: Option<T>): Option<T> {
    if given.Some? then given else current
  }

  /** A column after a merge: the supplied value if there was one, else the old value. */
  predicate Assigned<T(==)>(given: Option<T>, before: T, after: T) {
    (given.Some? ==> after == given.value) && (given.None? ==> after == before)
  }

  /** `Assigned` on a nullable column. */
  predicate AssignedOptional<T(==)>(given: Option<T>, before: Option<T>, after: Option<T>) {
    (given.Some? ==> after == given) && (given.None? ==> after == before)
  }
}

=== FILE: teams.dfy ===
/** `TeamsService` (src/team/teams.service.ts): teams, each in one work group. The work-group
    store enters only through its set of keys. */
module Teams {
  import opened Http
  import Store

  /** A stored team; `workGroupId` is the key of its `workGroup`. */
  datatype Team = Team(name: string, workGroupId: int)

  type Teams = map<int, Team>

  function FindOne(teams: Teams, id: int): (r: Result<Store.Entry<Team>>)
    ensures r.Ok? <==> id in teams
    ensures r.Ok? ==> Store.Holds(teams, r.value) && r.value.id == id
    ensures r.Fail? ==> r.error == HttpException(NotFound)
  {
    if id in teams then Ok(Store.Entry(id, teams[id])) else Fail(HttpException(NotFound))
  }

  /** The body of `POST /teams`. */
  datatype NewTeam = NewTeam(name: string, workGroupId: int)

  function Create(teams: Teams, groups: set<int>, id: int, dto: NewTeam): (r: Result<Saved<Teams, Store.Entry<Team>>>)
    requires id !in teams
    ensures r.Ok? <==> dto.workGroupId in groups
    ensures r.Fail? ==> r.error == HttpException(NotFound)
    ensures r.Ok? ==> r.value.store.Keys == teams.Keys + {id}
                      && (forall k :: k in teams ==> r.value.store[k] == teams[k])
                      && r.value.out == Store.Entry(id, r.value.store[id])
                      && r.value.store[id].name == dto.name && r.value.store[id].workGroupId == dto.workGroupId
  {
    if dto.workGroupId !in groups then Fail(HttpException(NotFound))
    else
      var team := Team(dto.name, dto.workGroupId);
      Ok(Saved(teams[id := team], Store.Entry(id, team)))
  }

  /** The body of `PATCH /teams/:id`, every field optional. */
  datatype TeamPatch = TeamPatch(name: Option<string>, workGroupId: Option<int>)

  /** `Object.assign(team, dto)` copies `workGroupId` onto a property that is not a column
      of `Team`, so saving changes only the name; the work group stays. */
  function Update(teams: Teams, id: int, patch: TeamPatch): (r: Result<Saved<Teams, Store.Entry<Team>>>)
    ensures r.Ok? <==> id in teams
    ensures r.Fail? ==> r.error == HttpException(NotFound)
    ensures r.Ok? ==> r.value.store == teams[id := r.value.out.record] && r.value.out.id == id
    ensures r.Ok? ==> Store.Assigned(patch.name, teams[id].name, r.value.out.record.name)
                      && r.value.out.record.workGroupId == teams[id].workGroupId
  {
    if id !in teams then Fail(HttpException(NotFound))
    else
      var team := teams[id].(name := Store.Pick(patch.name, teams[id].name));
      Ok(Saved(teams[id := team], Store.Entry(id, team)))
  }

  /** Moving a team to another group through the patch has no effect. */
  lemma UpdateKeepsWorkGroup(teams: Teams, id: int, group: int)
    requires id in teams
    ensures Update(teams, id, TeamPatch(None, Some(group))).value.store == teams
  {
    assert teams[id := teams[id]] == teams;
  }

  function Remove(teams: Teams, id: int): (r: Result<Teams>)
    ensures r.Ok? <==> id in teams
    ensures r.Fail? ==> r.error == HttpException(NotFound)
    ensures r.Ok? ==> r.value.Keys == teams.Keys - {id} && forall k :: k in r.value ==> r.value[k] == teams[k]
  {
    if id in teams then Ok(teams - {id}) else Fail(HttpException(NotFound))
  }
}

=== FILE: text.dfy ===
/** The text matching the list queries use: PostgreSQL `col ILIKE '%needle%'`, a
    substring test after folding ASCII letters to lower case. */
module Text {

  function Lower(c: char): (l: char)
    ensures 'A' <= c <= 'Z' ==> 'a' <= l <= 'z' && l as int - c as int == 32
    ensures !('A' <= c <= 'Z') ==> l == c
  {
    if 'A' <= c <= 'Z' then (c as int + 32) as char else c
  }

  function LowerAll(s: string): (l: string)
    ensures |l| == |s|
    ensures forall i :: 0 <= i < |s| ==> l[i] == Lower(s[i])
  {
    seq(|s|, i requires 0 <= i < |s| => Lower(s[i]))
  }

  /** `needle` occurs in `hay` at offset `i`, ignoring case. */
  predicate OccursAt(hay: string, needle: string, i: nat) {
    i + |needle| <= |hay| && LowerAll(hay[i..i + |needle|]) == LowerAll(needle)
  }

  /** `hay ILIKE '%' || needle || '%'` (wildcards inside `needle` taken literally). */
  predicate ContainsIgnoringCase(hay: string, needle: string) {
    exists i: nat :: i <= |hay| && OccursAt(hay, needle, i)
  }

  /** Case does not matter on either side. */
  lemma {:induction false} FoldingIsIdempotent(s: string)
    ensures LowerAll(LowerAll(s)) == LowerAll(s)
  {
    forall i | 0 <= i < |s|
      ensures LowerAll(LowerAll(s))[i] == LowerAll(s)[i]
    {
      assert LowerAll(s)[i] == Lower(s[i]);
    }
  }

  /** Every text contains each of its own slices, whatever their case. */
  lemma {:induction false} ContainsSlice(hay: string, i: nat, j: nat)
    requires i <= j <= |hay|
    ensures ContainsIgnoringCase(hay, hay[i..j])
    ensures ContainsIgnoringCase(hay, LowerAll(hay[i..j]))
  {
    FoldingIsIdempotent(hay[i..j]);
    assert OccursAt(hay, hay[i..j], i);
    assert OccursAt(hay, LowerAll(hay[i..j]), i);
  }
}

=== FILE: user_controller.dfy ===
/** `UserController` (src/user/user.controller.ts): each handler calls the service and
    replaces its failure by a status of its own. Messages and logging are not modelled, so a
    successful handler returns the service's result. */
module UserController {
  import opened Http
  import Crypto
  import Store
  import RoleService
  import UserService
  import UserEntity
  import CreateUserDto

  /** `GET /users/:id`: every failure reads as 404. */
  function FindUserById(users: UserService.Users, id: int): (r: Result<UserService.UserView>)
    ensures r.Ok? <==> id in users
    ensures r.Ok? ==> r == UserService.FindByOneById(users, id)
    ensures r.Fail? ==> r.error == HttpException(NotFound)
  {
    Rethrow(UserService.FindByOneById(users, id), NotFound)
  }

  /** `GET /users/:id` against the `User` entity as declared: `findByOneById` joins `role`,
      which is not a relation there, so the lookup throws and every id reads as 404. */
  function FindUserByIdAsWritten(users: UserService.Users, id: int): (r: Result<UserService.UserView>)
    ensures r == Fail(HttpException(NotFound))
  {
    var looked := UserService.FindByOneById(users, id);
    UserEntity.DeclaredRejectsServiceQueries(looked);
    Rethrow(UserEntity.Run(UserEntity.Declared, UserEntity.ById, looked), NotFound)
  }

  /** `GET /users`: the service's listing; any failure would read as 500. `ids` is the
      ordered list of every selected user. */
  method FindAllFiltered(users: UserService.Users, f: UserService.UserFilters)
    returns (r: Result<UserService.UserPage>, ghost ids: seq<int>)
    requires f.page.Some? ==> f.page.value >= 1
    requires f.limit.Some? ==> f.limit.value >= 1
    ensures r.Ok?
    ensures r.value.userPerPage == |r.value.data| && r.value.totalPages * Store.LimitOrDefault(f.limit) >= r.value.totalCount
    ensures forall k :: multiset(ids)[k] == if k in users && UserService.Selected(f, users[k]) then 1 else 0
    ensures r.value.totalCount == |ids|
    ensures |r.value.data| == Store.WindowSize(|ids|, Store.PagingOf(f.page, f.limit).skip, Store.PagingOf(f.page, f.limit).take)
    ensures forall i :: 0 <= i < |r.value.data| ==>
      UserService.InWindow(users, ids, Store.PagingOf(f.page, f.limit).skip + i, r.value.data[i])
    ensures r.value.totalPages == 0 || (r.value.totalPages - 1) * Store.LimitOrDefault(f.limit) < r.value.totalCount
    ensures forall i, j :: 0 <= i < j < |r.value.data| ==> r.value.data[i].createdAt >= r.value.data[j].createdAt
  {
    var page;
    page, ids := UserService.FindAllFilter(users, f);
    r := Rethrow(Ok(page), InternalServerError);
  }

  /** `GET /users` against the `User` entity as declared: the listing's join on `role`
      throws, and the handler's `catch` answers 500 for every query. */
  method FindAllFilteredAsWritten(users: UserService.Users, f: UserService.UserFilters)
    returns (r: Result<UserService.UserPage>)
    requires f.page.Some? ==> f.page.value >= 1
    requires f.limit.Some? ==> f.limit.value >= 1
    ensures r == Fail(HttpException(InternalServerError))
  {
    var page, _ := UserService.FindAllFilter(users, f);
    var listed := UserEntity.Run(UserEntity.Declared, UserEntity.Listing, Ok(page));
    UserEntity.DeclaredRejectsServiceQueries(Ok(page));
    r := Rethrow(listed, InternalServerError);
  }

  /** `POST /users`: every failure reads as 500, the missing role and the taken document or
      e-mail among them. */
  method CreateUser(users: UserService.Users, roles: RoleService.Roles, id: int, dto: UserService.NewUser, now: int, crypto: Crypto.Primitives)
    returns (r: Result<Saved<UserService.Users, UserService.UserView>>)
    requires id !in users
    ensures r.Fail? ==> r.error == HttpException(InternalServerError)
    ensures (forall k :: k in roles ==> roles[k].nameRole != dto.roleName) ==> r.Fail?
    ensures r.Fail? <==>
      || (forall k :: k in roles ==> roles[k].nameRole != dto.roleName)
      || (exists k :: k in users && (users[k].document == dto.document || users[k].email == dto.email))
    ensures r.Ok? ==> id in r.value.store && r.value.store[id].password == crypto.hash(dto.password)
                      && r.value.store == users[id := r.value.store[id]]
    ensures r.Ok? ==> var u := r.value.store[id];
      && u.document == dto.document && u.email == dto.email && u.name == dto.name
      && u.lastName == dto.lastName && u.direction == dto.direction && u.status == dto.status
      && u.role.nameRole == dto.roleName && u.role.id in roles
      && r.value.out == UserService.ViewOf(Store.Entry(id, u), true)
    ensures UserService.Unique(users) && r.Ok? ==> UserService.Unique(r.value.store)
  {
    var created := UserService.CreateUser(users, roles, id, dto, now, crypto);
    r := Rethrow(created, InternalServerError);
  }

  /** `POST /users` as the body reaches the service. `CreateUserDto` extends `Person`, whose
      columns carry no validator, so the global `whitelist: true` pipe strips the document,
      names, e-mail and direction and leaves `role` a `UserRole` string. `role.name_role` of
      a string is undefined, so the condition of `findByName` is dropped: it answers some
      role, or 404 when there is none. The row then holds NULL in `document` and `email`,
      which `save` refuses. The `catch` answers 500 either way. */
  method CreateUserAsWritten(users: UserService.Users, roles: RoleService.Roles, id: int,
                             body: CreateUserDto.Checked, now: int, crypto: Crypto.Primitives)
    returns (r: Result<Saved<UserService.Users, UserService.UserView>>)
    requires id !in users
    ensures r == Fail(HttpException(InternalServerError))
  {
    var hashed := crypto.hash(body.password);
    var found := Store.FindOne(roles, (x: RoleService.Role) => true);
    if found.None? {
      r := Rethrow(Fail(HttpException(NotFound)), InternalServerError);
      return;
    }
    var row := UserService.NewRow(None, None, None, None, None, hashed, RoleService.RowOf(found.value), body.status);
    r := Rethrow(UserService.SaveRow(users, id, row, now), InternalServerError);
  }

  /** `PATCH /users/:id`: every failure reads as 500. */
  function UpdateUser(users: UserService.Users, id: int, patch: UserService.UserPatch, crypto: Crypto.Primitives)
    : (r: Result<Saved<UserService.Users, UserService.UserView>>)
    ensures r.Fail? ==> r.error == HttpException(InternalServerError)
    ensures r.Ok? <==> UserService.UpdateUser(users, id, patch, crypto).Ok?
    ensures r.Ok? <==>
      id in users && !UserService.IsEmpty(patch)
      && !UserService.ClashesWithOthers(users, id, UserService.Merge(users[id], patch, crypto))
    ensures r.Ok? ==> r == UserService.UpdateUser(users, id, patch, crypto)
  {
    Rethrow(UserService.UpdateUser(users, id, patch, crypto), InternalServerError)
  }

  /** The service's 404 for an unknown id and 400 for an empty body both reach the client
      as 500. */
  lemma UpdateHidesClientErrors(users: UserService.Users, id: int, patch: UserService.UserPatch, crypto: Crypto.Primitives)
    requires id !in users || UserService.IsEmpty(patch)
    ensures UpdateUser(users, id, patch, crypto) == Fail(HttpException(InternalServerError))
    ensures FailedWith(UserService.UpdateUser(users, id, patch, crypto), if id !in users then NotFound else BadRequest)
  {
  }

  /** `DELETE /users/:id`, given the outcome of the service call: an `HttpException` passes
      through, anything else reads as 500. */
  function DeleteUser(outcome: Result<()>): (r: Result<()>)
    ensures outcome.Ok? <==> r.Ok?
    ensures r.Fail? ==> r.error.HttpException?
    ensures outcome.Fail? && outcome.error.HttpException? ==> r == outcome
    ensures outcome == Fail(PlainError) ==> r == Fail(HttpException(InternalServerError))
  {
    PassHttp(outcome)
  }
}

=== FILE: user_entity.dfy ===
/** The metadata TypeORM reads from the `User` entity (src/user/user.entity.ts with the
    columns it inherits from src/person/person.entity.ts), and what a query does when it
    names a relation or a property the entity does not declare: it throws a plain error
    before any row is read. */
module UserEntity {
  import opened Http

  /** The relations a query joins and the properties its `where` names. */
  datatype Query = Query(relations: set<string>, properties: set<string>)

  /** The relations and properties an entity declares. */
  datatype Metadata = Metadata(relations: set<string>, properties: set<string>)

  /** The entity as declared: `role` is a `UserRole` enum column, there is no relation at
      all, and there is no `resetPasswordToken` column. */
  const Declared: Metadata := Metadata({}, {
    "id", "document", "name", "lastName", "email", "direction", "createdAt", "updateAt",
    "deleted", "username", "password", "role", "status"})

  /** The entity the services are written against: `role` a relation to `Role`, and a
      nullable `resetPasswordToken` column. */
  const Assumed: Metadata := Metadata({"role"}, Declared.properties + {"resetPasswordToken"})

  /** `findOne({ where: { document }, relations: ['role'] })` (user.service.ts:33-36). */
  const ByDocument: Query := Query({"role"}, {"document"})

  /** `findOne({ where: { id }, relations: ['role'] })` (user.service.ts:50-53). */
  const ById: Query := Query({"role"}, {"id"})

  /** `findOne({ where: { email } })` (user.service.ts:71-73). */
  const ByEmail: Query := Query({}, {"email"})

  /** `findOne({ where: { resetPasswordToken } })` (user.service.ts:90-92). */
  const ByResetToken: Query := Query({}, {"resetPasswordToken"})

  /** `createQueryBuilder('user').leftJoinAndSelect('user.role', 'role')` (user.service.ts:108-110). */
  const Listing: Query := Query({"role"}, {"username", "createdAt"})

  predicate Resolves(meta: Metadata, q: Query) {
    q.relations <= meta.relations && q.properties <= meta.properties
  }

  /** A query over `meta`: the answer over the rows when every name in it resolves,
      otherwise the missing-property or missing-relation error TypeORM throws. */
  function Run<T>(meta: Metadata, q: Query, answer: Result<T>): Result<T> {
    if Resolves(meta, q) then answer else Fail(PlainError)
  }

  /** Against the entity as declared, every query of the service that joins `role` or reads
      the reset token throws, whatever the rows; only the e-mail lookup runs. */
  lemma DeclaredRejectsServiceQueries<T>(answer: Result<T>)
    ensures Run(Declared, ByDocument, answer) == Fail(PlainError)
    ensures Run(Declared, ById, answer) == Fail(PlainError)
    ensures Run(Declared, ByResetToken, answer) == Fail(PlainError)
    ensures Run(Declared, Listing, answer) == Fail(PlainError)
    ensures Run(Declared, ByEmail, answer) == answer
  {
    assert "role" !in Declared.relations;
    assert "resetPasswordToken" !in Declared.properties;
  }

  /** Against the entity the services assume, every one of their queries returns its answer. */
  lemma AssumedResolvesServiceQueries<T>(answer: Result<T>)
    ensures Run(Assumed, ByDocument, answer) == answer
    ensures Run(Assumed, ById, answer) == answer
    ensures Run(Assumed, ByResetToken, answer) == answer
    ensures Run(Assumed, Listing, answer) == answer
    ensures Run(Assumed, ByEmail, answer) == answer
  {
  }
}

=== FILE: user_service.dfy ===
/** `UserService` (src/user/user.service.ts): the lookups the login and the controller use,
    the filtered and paged listing, and user creation and update. */
module UserService {
  import opened Http
  import Crypto
  import Store
  import Text
  import RoleService
  import UserEntity

  /** A stored user (the `User` entity with the `Person` columns it inherits); its key is
      the generated `id`. `password` holds what `bcrypt.hash` returned, and `role` is the
      joined role row. */
  datatype User = User(
    document: string,
    name: Option<string>,
    lastName: Option<string>,
    email: string,
    direction: Option<string>,
    username: Option<string>,
    password: string,
    role: RoleService.RoleRow,
    status: bool,
    resetPasswordToken: Option<string>,
    createdAt: int
  )

  type Users = map<int, User>

  /** What `plainToInstance(GetUserDto, user, { excludeExtraneousValues: true })` keeps:
      the exposed columns only. There is no password field, so no response built from a
      view can carry the hash. `role` is `None` when the query did not join it. */
  datatype UserView = UserView(
    id: int,
    username: Option<string>,
    email: string,
    role: Option<RoleService.RoleRow>,
    status: bool,
    document: string,
    direction: Option<string>,
    createdAt: int
  )

  function ViewOf(e: Store.Entry<User>, roleJoined: bool): UserView {
    var u := e.record;
    UserView(e.id, u.username, u.email, if roleJoined then Some(u.role) else None,
             u.status, u.document, u.direction, u.createdAt)
  }

  /** Two users that the unique constraints on `document`, `email` and `username` forbid
      from being stored together (a NULL username never clashes). */
  predicate Clash(u: User, v: User) {
    u.document == v.document || u.email == v.email || (u.username.Some? && u.username == v.username)
  }

  predicate Unique(users: Users) {
    forall a, b :: a in users && b in users && a != b ==> !Clash(users[a], users[b])
  }

  /** Saving `u` under `id` would violate a unique constraint. */
  predicate ClashesWithOthers(users: Users, id: int, u: User) {
    exists k :: k in users && k != id && Clash(users[k], u)
  }

  /** `userRepository.findOne({ where })` followed by a 404 when nothing matched. */
  method FindOneWhere(users: Users, p: User -> bool) returns (r: Result<Store.Entry<User>>)
    ensures r.Ok? ==> Store.Holds(users, r.value) && p(r.value.record)
    ensures r.Fail? <==> forall k :: k in users ==> !p(users[k])
    ensures r.Fail? ==> r.error == HttpException(NotFound)
  {
    var found := Store.FindOne(users, p);
    if found.None? {
      return Fail(HttpException(NotFound));
    }
    return Ok(found.value);
  }

  method FindOneByDocument(users: Users, document: string) returns (r: Result<Store.Entry<User>>)
    ensures r.Ok? ==> Store.Holds(users, r.value) && r.value.record.document == document
    ensures r.Fail? <==> forall k :: k in users ==> users[k].document != document
    ensures r.Fail? ==> r.error == HttpException(NotFound)
    ensures Unique(users) && r.Ok? ==>
      forall k :: k in users && users[k].document == document ==> k == r.value.id
  {
    r := FindOneWhere(users, (u: User) => u.document == document);
  }

  function FindByOneById(users: Users, id: int): (r: Result<UserView>)
    ensures r.Ok? <==> id in users
    ensures r.Ok? ==> r.value.id == id && r.value.document == users[id].document
                      && r.value.email == users[id].email && r.value.role == Some(users[id].role)
    ensures r.Ok? ==> r.value == ViewOf(Store.Entry(id, users[id]), true)
    ensures r.Fail? ==> r.error == HttpException(NotFound)
  {
    if id in users then Ok(ViewOf(Store.Entry(id, users[id]), true)) else Fail(HttpException(NotFound))
  }

  method FindOneByEmail(users: Users, email: string) returns (r: Result<Store.Entry<User>>)
    ensures r.Ok? ==> Store.Holds(users, r.value) && r.value.record.email == email
    ensures r.Fail? <==> forall k :: k in users ==> users[k].email != email
    ensures r.Fail? ==> r.error == HttpException(NotFound)
    ensures Unique(users) && r.Ok? ==>
      forall k :: k in users && users[k].email == email ==> k == r.value.id
  {
    r := FindOneWhere(users, (u: User) => u.email == email);
  }

  method FindOneByResetPasswordToken(users: Users, token: string) returns (r: Result<Store.Entry<User>>)
    ensures r.Ok? ==> Store.Holds(users, r.value) && r.value.record.resetPasswordToken == Some(token)
    ensures r.Fail? <==> forall k :: k in users ==> users[k].resetPasswordToken != Some(token)
    ensures r.Fail? ==> r.error == HttpException(NotFound)
  {
    r := FindOneWhere(users, (u: User) => u.resetPasswordToken == Some(token));
  }

  /** The same lookup against the `User` entity as declared, which has no
      `resetPasswordToken` column: TypeORM throws, a plain error, whatever the users. */
  method FindOneByResetPasswordTokenAsWritten(users: Users, token: string) returns (r: Result<Store.Entry<User>>)
    ensures r == Fail(PlainError)
  {
    var looked := FindOneByResetPasswordToken(users, token);
    r := UserEntity.Run(UserEntity.Declared, UserEntity.ByResetToken, looked);
    UserEntity.DeclaredRejectsServiceQueries(looked);
  }

  /** The query of `GET /users` after validation; `page` and `limit` are at least 1 when given. */
  datatype UserFilters = UserFilters(username: Option<string>, nameRole: Option<string>, page: Option<int>, limit: Option<int>)

  datatype UserPage = UserPage(data: seq<UserView>, totalCount: nat, totalPages: nat, userPerPage: nat)

  /** A filter applies only when it is a non-empty string (JavaScript truthiness). */
  predicate Given(filter: Option<string>) {
    filter.Some? && filter.value != ""
  }

  /** The `andWhere` clauses: `username ILIKE` (never true of a NULL username) and
      `role.name_role ILIKE`. */
  predicate Selected(f: UserFilters, u: User) {
    && (Given(f.username) ==> u.username.Some? && Text.ContainsIgnoringCase(u.username.value, f.username.value))
    && (Given(f.nameRole) ==> Text.ContainsIgnoringCase(u.role.nameRole, f.nameRole.value))
  }

  /** Filters only narrow: dropping either one keeps every selected user, an absent or empty
      filter selects everyone, and a username selects any user whose name contains it. */
  lemma FiltersOnlyNarrow(f: UserFilters, u: User, i: nat, j: nat)
    ensures Selected(f, u) ==> Selected(f.(username := None), u) && Selected(f.(nameRole := None), u)
    ensures !Given(f.username) && !Given(f.nameRole) ==> Selected(f, u)
    ensures (u.username.Some? && i <= j <= |u.username.value| && f.nameRole.None?
             && f.username == Some(u.username.value[i..j]))
            ==> Selected(f, u)
  {
    if u.username.Some? && i <= j <= |u.username.value| {
      Text.ContainsSlice(u.username.value, i, j);
    }
  }

  /** `row` is the view of the user at position `n` of the ordered keys `ids`. */
  predicate InWindow(users: Users, ids: seq<int>, n: int, row: UserView) {
    0 <= n < |ids| && ids[n] in users && row == ViewOf(Store.Entry(ids[n], users[ids[n]]), true)
  }

  /** The rows of a page as the listing returns them, with the role joined. */
  function Views(page: seq<Store.Entry<User>>): (vs: seq<UserView>)
    ensures |vs| == |page|
    ensures forall i :: 0 <= i < |vs| ==> vs[i] == ViewOf(page[i], true) && vs[i].createdAt == page[i].record.createdAt
  {
    seq(|page|, i requires 0 <= i < |page| => ViewOf(page[i], true))
  }

  method FindAllFilter(users: Users, f: UserFilters) returns (r: UserPage, ghost ids: seq<int>)
    requires f.page.Some? ==> f.page.value >= 1
    requires f.limit.Some? ==> f.limit.value >= 1
    ensures forall k :: multiset(ids)[k] == if k in users && Selected(f, users[k]) then 1 else 0
    ensures r.totalCount == |ids|
    ensures |r.data| <= Store.PagingOf(f.page, f.limit).take
    ensures Store.PagingOf(f.page, f.limit).skip + Store.PagingOf(f.page, f.limit).take <= |ids| ==>
      |r.data| == Store.PagingOf(f.page, f.limit).take
    ensures |r.data| == Store.WindowSize(|ids|, Store.PagingOf(f.page, f.limit).skip, Store.PagingOf(f.page, f.limit).take)
    ensures forall i :: 0 <= i < |r.data| ==>
      InWindow(users, ids, Store.PagingOf(f.page, f.limit).skip + i, r.data[i])
    ensures r.userPerPage == |r.data|
    ensures var limit := Store.LimitOrDefault(f.limit);
      r.totalPages * limit >= r.totalCount
      && (r.totalPages == 0 || (r.totalPages - 1) * limit < r.totalCount)
    ensures forall i, j :: 0 <= i < j < |r.data| ==> r.data[i].createdAt >= r.data[j].createdAt
  {
    var stamp := (u: User) => u.createdAt;
    var p := Store.PagingOf(f.page, f.limit);
    var all, page := Store.Page(users, (u: User) => Selected(f, u), stamp, p.skip, p.take);
    ids := all;
    var data := Views(page);
    assert |data| == |page| == Store.WindowSize(|all|, p.skip, p.take);
    forall i | 0 <= i < |page|
      ensures InWindow(users, ids, p.skip + i, data[i])
    {
      var e := page[i];
      assert e == Store.Entry(all[p.skip + i], users[all[p.skip + i]]);
    }
    forall i, j | 0 <= i < j < |page|
      ensures data[i].createdAt >= data[j].createdAt
    {
      assert stamp(page[i].record) >= stamp(page[j].record);
    }
    var total := |all|;
    r := UserPage(data, total, Store.CeilDiv(total, p.take), |data|);
  }

  /** The body of `POST /users`; `roleName` is its `role.name_role`. */
  datatype NewUser = NewUser(
    document: string,
    name: Option<string>,
    lastName: Option<string>,
    email: string,
    direction: Option<string>,
    username: string,
    password: string,
    roleName: string,
    status: bool
  )

  /** The record `createUser` builds: the listed fields of the body, the hash of the
      password and the found role. `username` is not among the fields it copies. */
  function NewRecord(dto: NewUser, role: RoleService.RoleRow, hashed: string, now: int): User {
    User(dto.document, dto.name, dto.lastName, dto.email, dto.direction, None, hashed, role,
         dto.status, None, now)
  }

  /** The row `userRepository.create` builds in `createUser` from the fields it destructures:
      a `Person` column is `None` where the body left it undefined. */
  datatype NewRow = NewRow(
    document: Option<string>,
    name: Option<string>,
    lastName: Option<string>,
    email: Option<string>,
    direction: Option<string>,
    password: string,
    role: RoleService.RoleRow,
    status: bool
  )

  /** The user such a row becomes once both NOT NULL columns hold a value. */
  function Completed(row: NewRow, now: int): User
    requires row.document.Some? && row.email.Some?
  {
    User(row.document.value, row.name, row.lastName, row.email.value, row.direction, None,
         row.password, row.role, row.status, None, now)
  }

  /** `userRepository.save` of a new row: PostgreSQL refuses NULL in the NOT NULL `document`
      and `email` columns, and the unique constraints refuse a clash, both with a plain
      error; otherwise the row is stored under the generated `id`. */
  function SaveRow(users: Users, id: int, row: NewRow, now: int): (r: Result<Saved<Users, UserView>>)
    requires id !in users
    ensures r.Fail? ==> r.error == PlainError
    ensures row.document.None? || row.email.None? ==> r.Fail?
    ensures r.Ok? <==> row.document.Some? && row.email.Some? && !ClashesWithOthers(users, id, Completed(row, now))
    ensures r.Ok? ==> id in r.value.store && r.value.store == users[id := r.value.store[id]]
    ensures r.Ok? ==> var u := r.value.store[id];
      && Some(u.document) == row.document && Some(u.email) == row.email
      && u.name == row.name && u.lastName == row.lastName && u.direction == row.direction
      && u.password == row.password && u.role == row.role && u.status == row.status
      && u.username.None? && u.createdAt == now
      && r.value.out == ViewOf(Store.Entry(id, u), true)
    ensures Unique(users) && r.Ok? ==> Unique(r.value.store)
  {
    if row.document.None? || row.email.None? then Fail(PlainError)
    else
      var u := Completed(row, now);
      if ClashesWithOthers(users, id, u) then Fail(PlainError)
      else Ok(Saved(users[id := u], ViewOf(Store.Entry(id, u), true)))
  }

  method CreateUser(users: Users, roles: RoleService.Roles, id: int, dto: NewUser, now: int, crypto: Crypto.Primitives)
    returns (r: Result<Saved<Users, UserView>>)
    requires id !in users
    ensures (forall k :: k in roles ==> roles[k].nameRole != dto.roleName) <==> r == Fail(HttpException(NotFound))
    ensures r.Fail? ==> r.error == HttpException(NotFound) || r.error == PlainError
    ensures r.Ok? ==> id in r.value.store && r.value.store == users[id := r.value.store[id]]
    ensures r.Ok? ==> var u := r.value.store[id];
      && u.password == crypto.hash(dto.password)
      && u.document == dto.document && u.email == dto.email && u.name == dto.name
      && u.lastName == dto.lastName && u.direction == dto.direction && u.status == dto.status
      && u.username.None? && u.resetPasswordToken.None? && u.createdAt == now
      && u.role.nameRole == dto.roleName && u.role.id in roles
      && r.value.out == ViewOf(Store.Entry(id, u), true)
    ensures r == Fail(PlainError) <==>
      && (exists k :: k in roles && roles[k].nameRole == dto.roleName)
      && (exists k :: k in users && (users[k].document == dto.document || users[k].email == dto.email))
    ensures Unique(users) && r.Ok? ==> Unique(r.value.store)
  {
    var hashed := crypto.hash(dto.password);
    var role := RoleService.FindByName(roles, dto.roleName);
    if role.Fail? {
      return Fail(role.error);
    }
    var u := NewRecord(dto, role.value, hashed, now);
    if ClashesWithOthers(users, id, u) {
      return Fail(PlainError);
    }
    return Ok(Saved(users[id := u], ViewOf(Store.Entry(id, u), true)));
  }

  /** The body of `PATCH /users/:id`: the columns it may set, each optional. */
  datatype UserPatch = UserPatch(
    document: Option<string>,
    name: Option<string>,
    lastName: Option<string>,
    email: Option<string>,
    direction: Option<string>,
    username: Option<string>,
    password: Option<string>,
    status: Option<bool>
  )

  /** `Object.keys(updateUserDto).length === 0` */
  predicate IsEmpty(p: UserPatch) {
    && p.document.None? && p.name.None? && p.lastName.None? && p.email.None?
    && p.direction.None? && p.username.None? && p.password.None? && p.status.None?
  }

  /** `Object.assign(user, updateUserDto)` after a truthy password was replaced by its hash. */
  function Merge(u: User, p: UserPatch, crypto: Crypto.Primitives): User {
    var password :=
      if p.password.Some? && p.password.value != "" then crypto.hash(p.password.value)
      else Store.Pick(p.password, u.password);
    u.(document := Store.Pick(p.document, u.document),
       name := Store.PickOptional(p.name, u.name),
       lastName := Store.PickOptional(p.lastName, u.lastName),
       email := Store.Pick(p.email, u.email),
       direction := Store.PickOptional(p.direction, u.direction),
       username := Store.PickOptional(p.username, u.username),
       password := password,
       status := Store.Pick(p.status, u.status))
  }

  function UpdateUser(users: Users, id: int, patch: UserPatch, crypto: Crypto.Primitives)
    : (r: Result<Saved<Users, UserView>>)
    ensures id !in users ==> r == Fail(HttpException(NotFound))
    ensures id in users && IsEmpty(patch) ==> r == Fail(HttpException(BadRequest))
    ensures r.Fail? ==> r.error in {HttpException(NotFound), HttpException(BadRequest), PlainError}
    ensures r == Fail(PlainError) <==>
      id in users && !IsEmpty(patch) && ClashesWithOthers(users, id, Merge(users[id], patch, crypto))
    ensures r.Ok? ==> id in users && !IsEmpty(patch) && id in r.value.store
                      && r.value.store == users[id := r.value.store[id]]
    ensures r.Ok? ==> var (before, u) := (users[id], r.value.store[id]);
      && (patch.document.Some? ==> u.document == patch.document.value)
      && (patch.document.None? ==> u.document == before.document)
      && (patch.email.Some? ==> u.email == patch.email.value)
      && (patch.email.None? ==> u.email == before.email)
      && (patch.name.Some? ==> u.name == patch.name)
      && (patch.name.None? ==> u.name == before.name)
      && (patch.lastName.Some? ==> u.lastName == patch.lastName)
      && (patch.lastName.None? ==> u.lastName == before.lastName)
      && (patch.direction.Some? ==> u.direction == patch.direction)
      && (patch.direction.None? ==> u.direction == before.direction)
      && (patch.username.Some? ==> u.username == patch.username)
      && (patch.username.None? ==> u.username == before.username)
      && (patch.status.Some? ==> u.status == patch.status.value)
      && (patch.status.None? ==> u.status == before.status)
      && (patch.password.None? ==> u.password == before.password)
      && (patch.password.Some? && patch.password.value != "" ==> u.password == crypto.hash(patch.password.value))
      && (patch.password == Some("") ==> u.password == "")
      && u.role == before.role && u.resetPasswordToken == before.resetPasswordToken && u.createdAt == before.createdAt
    ensures r.Ok? ==> r.value.out == ViewOf(Store.Entry(id, r.value.store[id]), false)
    ensures Unique(users) && r.Ok? ==> Unique(r.value.store)
  {
    if id !in users then Fail(HttpException(NotFound))
    else if IsEmpty(patch) then Fail(HttpException(BadRequest))
    else
      var u := Merge(users[id], patch, crypto);
      if ClashesWithOthers(users, id, u) then Fail(PlainError)
      else Ok(Saved(users[id := u], ViewOf(Store.Entry(id, u), false)))
  }
}

=== FILE: uuid.dfy ===
/** `@IsUUID('4')`: the textual form of a version-4 UUID (RFC 4122, section 3 for the text
    and section 4.4 for the version and variant bits), hex digits in either case. */
module Uuid {

  predicate IsHexDigit(c: char) {
    '0' <= c <= '9' || 'a' <= c <= 'f' || 'A' <= c <= 'F'
  }

  /** What position `i` of a 36-character candidate must hold. */
  predicate CharFits(s: string, i: int)
    requires 0 <= i < |s|
  {
    if i == 8 || i == 13 || i == 18 || i == 23 then s[i] == '-'
    else if i == 14 then s[i] == '4'
    else if i == 19 then s[i] in "89abAB"
    else IsHexDigit(s[i])
  }

  /** Eight, four, four, four and twelve hex digits joined by hyphens; the version digit is
      `4` and the variant digit one of `8`, `9`, `a`, `b`. */
  predicate IsUuidV4(s: string) {
    |s| == 36 && forall i :: 0 <= i < 36 ==> CharFits(s, i)
  }

  type Byte = b: int | 0 <= b < 256

  /** The lower-case hex digit of a nibble. */
  function Digit(d: int): (c: char)
    requires 0 <= d < 16
    ensures IsHexDigit(c)
    ensures d < 10 ==> c as int == '0' as int + d
    ensures d >= 10 ==> c as int == 'a' as int + d - 10
  {
    if d < 10 then ('0' as int + d) as char else ('a' as int + d - 10) as char
  }

  /** Two hex digits per byte, high nibble first. */
  function Hex(bytes: seq<Byte>): (s: string)
    ensures |s| == 2 * |bytes|
    ensures forall i :: 0 <= i < |s| ==> IsHexDigit(s[i])
  {
    if |bytes| == 0 then [] else [Digit(bytes[0] / 16), Digit(bytes[0] % 16)] + Hex(bytes[1..])
  }

  /** Byte `i` is written at positions `2 i` and `2 i + 1`, high nibble first. */
  lemma {:induction false} HexAt(bytes: seq<Byte>, i: nat)
    requires i < |bytes|
    ensures Hex(bytes)[2 * i] == Digit(bytes[i] / 16) && Hex(bytes)[2 * i + 1] == Digit(bytes[i] % 16)
    decreases i
  {
    assert Hex(bytes) == [Digit(bytes[0] / 16), Digit(bytes[0] % 16)] + Hex(bytes[1..]);
    if i > 0 {
      HexAt(bytes[1..], i - 1);
    }
  }

  /** The 8-4-4-4-12 text of sixteen bytes. */
  function Format(bytes: seq<Byte>): (s: string)
    requires |bytes| == 16
  {
    Hex(bytes[..4]) + "-" + Hex(bytes[4..6]) + "-" + Hex(bytes[6..8]) + "-" + Hex(bytes[8..10]) + "-" + Hex(bytes[10..])
  }

  /** Section 4.4: the high nibble of octet 6 becomes the version `0100`, the two high bits
      of octet 8 become the variant `10`. */
  function WithVersion4(bytes: seq<Byte>): (v: seq<Byte>)
    requires |bytes| == 16
    ensures |v| == 16
    ensures v[6] / 16 == 4 && 8 <= v[8] / 16 <= 11
    ensures forall i :: 0 <= i < 16 && i != 6 && i != 8 ==> v[i] == bytes[i]
    ensures v[6] % 16 == bytes[6] % 16 && v[8] % 64 == bytes[8] % 64
  {
    bytes[6 := 0x40 + bytes[6] % 16][8 := 0x80 + bytes[8] % 64]
  }

  /** Every version-4 UUID, written the usual way, passes the validator. */
  lemma {:induction false} FormattedVersion4Accepted(bytes: seq<Byte>)
    requires |bytes| == 16
    ensures IsUuidV4(Format(WithVersion4(bytes)))
  {
    var v := WithVersion4(bytes);
    var s := Format(v);
    var a, b, c, d, e := Hex(v[..4]), Hex(v[4..6]), Hex(v[6..8]), Hex(v[8..10]), Hex(v[10..]);
    assert s == a + "-" + b + "-" + c + "-" + d + "-" + e;
    forall i | 0 <= i < 36
      ensures CharFits(s, i)
    {
      if i < 8 {
        assert s[i] == a[i];
      } else if 9 <= i < 13 {
        assert s[i] == b[i - 9];
      } else if 14 <= i < 18 {
        assert s[i] == c[i - 14];
        HexAt(v[6..8], 0);
      } else if 19 <= i < 23 {
        assert s[i] == d[i - 19];
        HexAt(v[8..10], 0);
      } else if 24 <= i < 36 {
        assert s[i] == e[i - 24];
      }
    }
  }

  /** A version-1 UUID (the DNS namespace identifier of RFC 4122, appendix C) is refused:
      its version digit is `1`. */
  lemma Version1Rejected()
    ensures !IsUuidV4("6ba7b810-9dad-11d1-80b4-00c04fd430c8")
  {
    assert !CharFits("6ba7b810-9dad-11d1-80b4-00c04fd430c8", 14);
  }
}

=== FILE: validation.dfy ===
/** The class-validator decorators the request bodies and queries use, as predicates over one
    property of the incoming object. */
module Validation {
  import opened Http

  /** A property as it reaches the validator: absent (`undefined`), `null`, a string, an
      integral number, `NaN`, or a boolean. Fractional numbers are not modelled. */
  datatype Value = Missing | Null | Str(text: string) | Num(n: int) | NotANumber | Bool(b: bool)

  /** `@IsOptional()`: when the value is `null` or `undefined` the other decorators are skipped. */
  predicate Absent(v: Value) {
    v == Missing || v == Null
  }

  /** `@IsNotEmpty()`: anything but `''`, `null` and `undefined`. */
  predicate IsNotEmpty(v: Value) {
    !Absent(v) && v != Str("")
  }

  /** `@IsString()`. */
  predicate IsString(v: Value) {
    v.Str?
  }

  /** `@Length(min, max)`: a string whose length, in characters, lies in `[min, max]`. */
  predicate Length(v: Value, min: nat, max: nat) {
    v.Str? && min <= |v.text| <= max
  }

  /** `@IsNumber()`, which refuses `NaN`; on integral values this is also `@IsInt()`. */
  predicate IsNumber(v: Value) {
    v.Num?
  }

  /** `@IsBoolean()`. */
  predicate IsBoolean(v: Value) {
    v.Bool?
  }

  /** `@Min(bound)`: a number not below `bound` (`NaN` compares false). */
  predicate Min(v: Value, bound: int) {
    v.Num? && v.n >= bound
  }

  /** A required string property: `@IsString() @IsNotEmpty()`, with a `@Length` when
      `max` is given. */
  predicate RequiredText(v: Value, max: Option<nat>) {
    IsString(v) && IsNotEmpty(v) && (max.Some? ==> Length(v, 1, max.value))
  }

  /** An optional property: absent, or passing `check`. */
  predicate OptionalWith(v: Value, check: Value -> bool) {
    Absent(v) || check(v)
  }
}

=== FILE: workgroups.dfy ===
/** `WorkGroupsService` (src/workgroup/workgroups.service.ts): named work groups and the
    teams that belong to them. */
module WorkGroups {
  import opened Http
  import Store
  import Teams

  datatype WorkGroup = WorkGroup(name: string)

  type WorkGroups = map<int, WorkGroup>

  /** A work group with its `teams` relation loaded. */
  datatype GroupView = GroupView(id: int, name: string, teams: Teams.Teams)

  function FindOne(groups: WorkGroups, teams: Teams.Teams, id: int): (r: Result<GroupView>)
    ensures r.Ok? <==> id in groups
    ensures r.Fail? ==> r.error == HttpException(NotFound)
    ensures r.Ok? ==> r.value.id == id && r.value.name == groups[id].name
    ensures r.Ok? ==> forall k :: k in r.value.teams <==> k in teams && teams[k].workGroupId == id
    ensures r.Ok? ==> forall k :: k in r.value.teams ==> r.value.teams[k] == teams[k]
  {
    if id !in groups then Fail(HttpException(NotFound))
    else Ok(GroupView(id, groups[id].name, map k | k in teams && teams[k].workGroupId == id :: teams[k]))
  }

  function Create(groups: WorkGroups, id: int, name: string): (r: Saved<WorkGroups, Store.Entry<WorkGroup>>)
    requires id !in groups
    ensures r.store.Keys == groups.Keys + {id}
    ensures forall k :: k in groups ==> r.store[k] == groups[k]
    ensures r.store[id].name == name && r.out == Store.Entry(id, r.store[id])
  {
    Saved(groups[id := WorkGroup(name)], Store.Entry(id, WorkGroup(name)))
  }

  /** The body of `PATCH /workgroups/:id`. */
  datatype GroupPatch = GroupPatch(name: Option<string>)

  function Update(groups: WorkGroups, id: int, patch: GroupPatch): (r: Result<Saved<WorkGroups, Store.Entry<WorkGroup>>>)
    ensures r.Ok? <==> id in groups
    ensures r.Fail? ==> r.error == HttpException(NotFound)
    ensures r.Ok? ==> r.value.store == groups[id := r.value.out.record] && r.value.out.id == id
    ensures r.Ok? ==> Store.Assigned(patch.name, groups[id].name, r.value.out.record.name)
  {
    if id !in groups then Fail(HttpException(NotFound))
    else
      var group := WorkGroup(Store.Pick(patch.name, groups[id].name));
      Ok(Saved(groups[id := group], Store.Entry(id, group)))
  }

  /** An update that supplies nothing saves the group as it was. */
  lemma EmptyUpdateIsIdentity(groups: WorkGroups, id: int)
    requires id in groups
    ensures Update(groups, id, GroupPatch(None)).value.store == groups
  {
    assert groups[id := groups[id]] == groups;
  }

  function Remove(groups: WorkGroups, id: int): (r: Result<WorkGroups>)
    ensures r.Ok? <==> id in groups
    ensures r.Fail? ==> r.error == HttpException(NotFound)
    ensures r.Ok? ==> r.value.Keys == groups.Keys - {id} && forall k :: k in r.value ==> r.value[k] == groups[k]
  {
    if id in groups then Ok(groups - {id}) else Fail(HttpException(NotFound))
  }

  /** A team created under a group shows up among that group's teams. */
  lemma CreatedTeamIsListed(groups: WorkGroups, teams: Teams.Teams, id: int, dto: Teams.NewTeam)
    requires id !in teams && dto.workGroupId in groups
    ensures var after := Teams.Create(teams, groups.Keys, id, dto).value.store;
      id in FindOne(groups, after, dto.workGroupId).value.teams
  {
  }
}
